=== FILE: README.md ===
# brainCloud S2S session and RTT connection, modelled in Dafny

This project models the two controllers of the brainCloud server-to-server (S2S) JavaScript
library:

* **The S2S session context** (`brainclouds2s.js`). An object built by `init` holds the session
  state (DISCONNECTED / AUTHENTICATING / CONNECTED), the packet counter, the session id, the retry
  counter, the auto-authenticate flag, a heartbeat timer and a FIFO request queue. Requests are
  numbered per packet and dispatched one at a time. The first request of a disconnected
  auto-authenticating context authenticates first. A reply carrying the session-expired reason
  code 40365 triggers a re-authentication, at most three times in a row.
* **The RTT connection** (`brainclouds2s-rtt.js`). A module-level singleton registers for a
  real-time channel through the session and picks the first `"ws"` endpoint of the reply. It
  builds the WebSocket URI by literal concatenation of the auth map, sends the CONNECT frame when
  the socket opens and runs the RTT heartbeat. It routes incoming messages and tears the
  connection down on close or error.

Layout:

* `common.dfy` holds `Option`, a scalar JSON value and field lookup.
* `s2s_protocol.dfy` holds the constants, packets, responses, the authentication packet, the
  result a callback receives, and the session-expiry test.
* `s2s_spec.dfy` describes the session as a value: a `Snapshot` of the context, plus
  ghost logs of the packets sent (with why each was sent), the callbacks invoked, every request ever queued and the
  requests that have left the queue. It has one function per operation and per asynchronous
  completion, an `Event` type and `Run` over event sequences, and the invariant `Valid`.
* `s2s_properties.dfy` holds what the dispatcher promises, proved about those functions:
  - invariants over every run;
  - the single-in-flight discipline;
  - the effect of each completion;
  - failing the queue.
* `s2s_ordering.dfy` shows that caller requests reach the transport in the order they were
  queued, over every run. Each envelope in `sent` has a recorded origin in `origins`: the
  authentication, a keepalive, or the request at a given position of `history`.
* `s2s_scenarios.dfy` holds end-to-end runs: auto-authentication on the first request, and three
  requests made back to back.
* `s2s_findings.dfy` places the source's as-written behaviour next to the corrected behaviour,
  together with the two quirks of the dispatcher's ordering.
* `s2s_context.dfy` is the imperative model, `S2SSession.Context`. It is a class with the
  context's fields. Every method states its new state as a transition of `S2SSpec` (or, for
  `StopHeartbeat`, as the single field it clears), and
  the public methods also preserve `Valid`. `FailAllRequests` is a loop, proved against its
  specification function.
* `rtt_uri.dfy` holds the URI builder: a specification function `Uri`, the loop `BuildUri`
  proved equal to it, a parser for the query that round-trips unambiguous auth maps, and a
  counterexample for ambiguous ones.
* `rtt_connection.dfy` holds the RTT singleton as the class `Rtt.RttConnection`. Each method
  states its whole new state as a `View()` update. The endpoint search `FindWsEndpoint` is a loop.

Modelling choices:

* Transport calls are not executed. Sending appends the packet to the `sent` log and records the
  call, with its continuation, in `inFlight`. The reply to in-flight call `k` is a separate
  event (`OnAuthResponse`, `OnResponse`) carrying the decoded reply. `None` stands for a
  transport error or an unparsable body; the transport delivers `null` in those cases.
* Callbacks are numbers. Invoking one appends a `Delivery` to the `delivered` log.
* Timers are flags. A tick of the session heartbeat and of the RTT heartbeat is an explicit
  method (`HeartbeatTick`).
* The session-expiry test reads the top-level `status` and `reason_code` of the reply, as
  `brainclouds2s.js:183` does. A 40365 carried only inside a message response does not trigger
  re-authentication: that reply reaches the callback like any other.
* Two ordering quirks of the dispatcher are kept as written and proved as lemmas
  (`S2SFindings.HeartbeatBypassesQueue`, `S2SFindings.ExplicitAuthDoesNotReleaseQueue`):
  - the heartbeat calls the internal `request` directly, bypassing the queue;
  - an explicit `authenticate` does not send the requests queued meanwhile.

  Because of them, the single-in-flight invariant `S2SProperties.Orderly` is proved for
  `S2SProperties.PoliteRun`s, which follow these rules:
  - the heartbeat ticks only with an empty queue and nothing in flight;
  - `authenticate` and `disconnect` are called only with nothing in flight;
  - no request is made while a keepalive is in flight.

## Model

| member | source | states |
|---|---|---|
| S2SProtocol.EffectiveUrl | brainclouds2s.js:249-251 | a missing or empty url becomes `api.braincloudservers.com`, any other url is kept, and the result is never empty |
| S2SProtocol.ResultFor | brainclouds2s.js:193-199 | a callback receives the first message response when there is one, the raw reply when it has no message responses, and nothing (null) when there is no reply |
| S2SSpec.Send | brainclouds2s.js:173-182 | a sent packet carries the current packet id and session id with exactly the one message, the packet id grows by exactly one, the call joins those in flight, nothing else changes |
| S2SSpec.AuthenticateInternal | brainclouds2s.js:93-112 | authentication sets AUTHENTICATING and sends the AUTHENTICATE packet with packet id 0 and no session id; nothing else changes |
| S2SSpec.QueueRequest | brainclouds2s.js:150-159 | the request is appended at the tail; it is sent immediately iff the queue was empty and the state is not AUTHENTICATING, otherwise nothing is sent |
| S2SSpec.Disconnect | brainclouds2s.js:273-280 | heartbeat stopped, DISCONNECTED, retry count 0, packet id 0, session id null, queue empty, and no callback invoked |
| S2SSpec.FailAllRequests | brainclouds2s.js:161-171 | (corrected) the queue becomes empty and each queued request's callback gets the message, in queue order |
| S2SSpec.Request | brainclouds2s.js:306-319 | the request is appended to the queue and the queue order; a DISCONNECTED auto-authenticating context becomes AUTHENTICATING and sends only the authentication packet; otherwise the state is kept; no callback runs |
| S2SSpec.FailAllRequestsAsWritten | brainclouds2s.js:161-171 | (as written) the queue is emptied and its requests retired, but no callback runs and nothing is sent |
| S2SSpec.ReAuthContinuation | brainclouds2s.js:139-147 | (corrected) after a non-null authentication result the queue head is sent again unchanged with the current packet id and session id; otherwise nothing is sent; the queue and the callbacks are untouched |
| S2SSpec.ReAuthContinuationAsWritten | brainclouds2s.js:139-147 | (as written) the continuation sends nothing and changes neither the queue nor the callbacks |
| S2SSpec.ResumeAfterAuth | brainclouds2s.js:308-315 | the authentication continuations (this one, the caller's at line 128 and `reAuth`'s) never touch the queue or the state; a caller's continuation only receives the result; the auto- and re-authentication continuations send at most the queue head |
| S2SSpec.AuthReplied | brainclouds2s.js:112-135 | an authentication reply never queues, retires requests only, sends at most one envelope, keeps the retry count when a message response is present, connects only on a reply with a message response, and otherwise resets the retry count and empties the queue |
| S2SSpec.RequestReplied | brainclouds2s.js:182-210 | a request reply sends at most one envelope; on session expiry the retry count rises by one with queue and callbacks untouched; otherwise the retry count is reset and at most one callback runs |
| S2SSpec.RetryAfterExpiry | brainclouds2s.js:184-190 | the expiry branch keeps the queue and the callbacks, increments the retry count, resets packet id and session id, stops the heartbeat and sends the re-authentication |
| S2SSpec.Complete | brainclouds2s.js:193-209 | the completion branch resets the retry count; for a caller it notifies that callback and drops the head; a remaining head is sent next with the current packet id and session id, and nothing is sent when the queue is empty |
| S2SSpec.DropHead | brainclouds2s.js:201-202 | a completed request leaves the queue from the head and is retired after the requests retired before it |
| S2SProperties.InitValid | brainclouds2s.js:248-267 | a new context is DISCONNECTED with packet id 0, session id null, retry count 0, empty queue, no heartbeat, the default url when none is given, and satisfies the invariant |
| S2SProperties.RequestValid | brainclouds2s.js:306-319 | the exported `request` preserves the invariant |
| S2SProperties.ResumeAfterAuthValid | brainclouds2s.js:308-315 | the continuations run after an authentication preserve the invariant |
| S2SProperties.AuthRepliedValid | brainclouds2s.js:112-135 | every outcome of an authentication reply preserves the invariant |
| S2SProperties.DropHeadValid | brainclouds2s.js:201-203 | removing the completed head and resetting the retry count preserves the invariant |
| S2SProperties.RequestRepliedValid | brainclouds2s.js:182-210 | every outcome of a request reply preserves the invariant |
| S2SProperties.StepValid | brainclouds2s.js:173-319 | every operation and completion preserves the invariant: retry count at most 3, FIFO history, no heartbeat while DISCONNECTED (an explicit `authenticate` leaves it running while AUTHENTICATING), no session id while DISCONNECTED |
| S2SProperties.RunValid | brainclouds2s.js:173-319 | every sequence of operations and replies from a valid context ends in a valid context |
| S2SProperties.RetryCountBounded | brainclouds2s.js:183-191 | after any history since `init` the retry count never exceeds 3 |
| S2SProperties.QueueIsFifo | brainclouds2s.js:150-159 | after any history since `init`, the requests that left the queue, followed by those still queued, are exactly the requests ever queued, in order |
| S2SProperties.InitOrderly | brainclouds2s.js:248-267 | a new context has nothing in flight |
| S2SProperties.RequestOrderly | brainclouds2s.js:306-319 | when no keepalive is in flight, a request keeps at most one call in flight, and any caller request in flight is the queue head |
| S2SProperties.ResumeAfterAuthOrderly | brainclouds2s.js:308-315 | resuming after an authentication sends only the queue head |
| S2SProperties.AuthRepliedOrderly | brainclouds2s.js:112-135 | an authentication reply keeps the single-in-flight discipline |
| S2SProperties.RequestRepliedOrderly | brainclouds2s.js:182-210 | a request reply sends at most the new head, keeping one call in flight |
| S2SProperties.StepOrderly | brainclouds2s.js:173-319 | each operation that follows the caller discipline keeps one call in flight at most, and it is the queue head |
| S2SProperties.PoliteRunsStayOrderly | brainclouds2s.js:150-211 | under the caller discipline, every run keeps a single request in flight and it is the head of the queue |
| S2SProperties.AutoAuthRequestAuthenticatesFirst | brainclouds2s.js:306-319 | a request on a DISCONNECTED auto-authenticating context sends exactly one authentication and queues the request without sending it |
| S2SProperties.AuthSucceeded | brainclouds2s.js:116-123 | status 200 sets CONNECTED, session id from the reply, packet id echoed plus one, heartbeat running; auto- or re-authentication then sends the queue head with that packet id and session id |
| S2SProperties.AuthRejected | brainclouds2s.js:124-128 | another status fails every queued request with the message, leaves the state (AUTHENTICATING) untouched and gives the caller the message |
| S2SProperties.AuthUnanswered | brainclouds2s.js:130-134 | a reply without message responses fails the queue, disconnects, and gives the caller null |
| S2SProperties.SessionExpiryReAuthenticates | brainclouds2s.js:183-191 | an expired-session reply with retries left stops the heartbeat, increments the retry count (to at most 3), resets packet id and session id, sends a re-authentication, and leaves queue and callbacks untouched |
| S2SProperties.CompletionAdvancesQueue | brainclouds2s.js:193-209 | any other reply is handed to the head's callback, the head is removed, the retry count reset, and the new head sent next with the current packet id and session id |
| S2SProperties.RetriesExhausted | brainclouds2s.js:183-198 | a fourth consecutive session-expired reply reaches the callback and resets the retry count |
| S2SProperties.HeartbeatFailureDisconnects | brainclouds2s.js:78-82 | an absent or non-200 keepalive reply disconnects the context without invoking any caller callback, unless it is a session-expiry reply (status other than 200, reason code 40365) with retries left, which re-authenticates instead |
| S2SProperties.DisconnectIdempotent | brainclouds2s.js:273-280 | disconnecting twice is disconnecting once |
| S2SProperties.NotifySplit | brainclouds2s.js:166-170 | the failure notices of a queue are the notices of any two parts it splits into |
| S2SProperties.FailAllReachesEveryCallback | brainclouds2s.js:163-170 | (corrected) failing the queue gives every queued request with a callback exactly one notice, in queue order |
| S2SFindings.ReAuthAsWrittenStallsQueue | brainclouds2s.js:138-148 | as written, a successful re-authentication re-sends nothing, and later requests queue behind the stalled head without being sent, until the next keepalive |
| S2SFindings.ReAuthAsWrittenDropsHeadAtKeepalive | brainclouds2s.js:193-209 | as written, the stall ends at the next keepalive (started by the re-authentication, line 122): its successful reply removes the stalled request without calling its callback and sends the next queued request |
| S2SFindings.ExpiredRequestIsResentUnchanged | brainclouds2s.js:142-145 | (corrected) after an expired session and a successful re-authentication, the same request is sent again unchanged as the next packet, and no callback fires |
| S2SFindings.FailAllAsWrittenNotifiesNobody | brainclouds2s.js:164-170 | as written, failing the queue empties it and invokes no callback, while each queued callback is owed one |
| S2SFindings.HeartbeatBypassesQueue | brainclouds2s.js:69-84 | a request made while a keepalive is in flight is sent at once (two calls in flight), and the keepalive's completion then removes that request from the queue |
| S2SFindings.ExplicitAuthDoesNotReleaseQueue | brainclouds2s.js:296-298 | requests made during an explicit `authenticate` stay queued after it succeeds, with nothing in flight |
| S2SOrdering.InitOrdered | brainclouds2s.js:248-267 | a new context has sent nothing, so its envelope log is trivially in order |
| S2SOrdering.QuietOrdered | brainclouds2s.js:150-171 | a change that sends nothing, only appends to the queue order and only retires requests keeps the order |
| S2SOrdering.SendOrdered | brainclouds2s.js:173-182 | sending the queue head, or a keepalive, records an origin that fits the envelope and never goes back in the queue order |
| S2SOrdering.AuthenticateOrdered | brainclouds2s.js:93-112 | an authentication envelope is recorded as such and keeps the order |
| S2SOrdering.DisconnectOrdered | brainclouds2s.js:273-280 | `disconnect` keeps the order |
| S2SOrdering.FailAllOrdered | brainclouds2s.js:161-171 | failing the queue keeps the order |
| S2SOrdering.RequestOrdered | brainclouds2s.js:306-319 | the exported `request` sends a caller request only as the queue head |
| S2SOrdering.ResumeAfterAuthOrdered | brainclouds2s.js:308-315 | the authentication continuations send a caller request only as the queue head |
| S2SOrdering.AuthRepliedOrdered | brainclouds2s.js:112-135 | an authentication reply keeps the order |
| S2SOrdering.RequestRepliedOrdered | brainclouds2s.js:182-210 | a request reply, including the re-authentication after expiry and the next send, keeps the order |
| S2SOrdering.StepOrdered | brainclouds2s.js:173-319 | every operation and completion keeps the order |
| S2SOrdering.RunOrdered | brainclouds2s.js:173-319 | every run from a valid, ordered context ends ordered |
| S2SOrdering.CallerRequestsSentInQueueOrder | brainclouds2s.js:150-209 | after any history since `init`, each envelope is the authentication packet, a keepalive, or a caller request; each caller envelope carries the request at its position in the queue order; and those positions never decrease along the transport's log |
| S2SScenarios.AutoAuthScenario | brainclouds2s.js:306-319 | on a fresh auto-authenticating context one request yields exactly one authentication packet and, after it succeeds, exactly one request packet carrying the new session id |
| S2SScenarios.ReplyToHead | brainclouds2s.js:193-209 | a reply to the head hands its result to the head's callback and sends the next queued request with the next packet id, or sends nothing when the queue empties |
| S2SScenarios.BackToBackRequests | brainclouds2s.js:150-159 | three requests made back to back on an idle connected context send only the first and queue all three |
| S2SScenarios.BackToBackScenario | brainclouds2s.js:150-209 | the three requests reach the transport in order with consecutive packet ids, one in flight at a time, and each callback gets its own reply in order |
| S2SSession.Context.Init | brainclouds2s.js:248-267 | the constructor yields the initial context: DISCONNECTED, packet id 0, no session, empty queue, no heartbeat, url defaulted |
| S2SSession.Context.StopHeartbeat | brainclouds2s.js:86-91 | the heartbeat timer is cleared; nothing else changes |
| S2SSession.Context.StartHeartbeat | brainclouds2s.js:69-84 | any running timer is replaced, so exactly one runs; nothing else changes |
| S2SSession.Context.Send | brainclouds2s.js:173-182 | the context changes as `S2SSpec.Send` describes |
| S2SSession.Context.AuthenticateInternal | brainclouds2s.js:93-112 | the context changes as `S2SSpec.AuthenticateInternal` describes |
| S2SSession.Context.ReAuth | brainclouds2s.js:138-148 | starts an authentication whose continuation re-sends the queue head |
| S2SSession.Context.QueueRequest | brainclouds2s.js:150-159 | the context changes as `S2SSpec.QueueRequest` describes |
| S2SSession.Context.FailAllRequests | brainclouds2s.js:161-171 | the loop empties the queue and notifies every snapshot entry in order, as `S2SSpec.FailAllRequests` describes |
| S2SSession.Context.Disconnect | brainclouds2s.js:273-280 | the context changes as `S2SSpec.Disconnect` describes, preserving the invariant |
| S2SSession.Context.Authenticate | brainclouds2s.js:296-298 | the exported `authenticate` starts an authentication for the caller, preserving the invariant |
| S2SSession.Context.Request | brainclouds2s.js:306-319 | the exported `request` authenticates first when needed, then queues, preserving the invariant |
| S2SSession.Context.Invoke | brainclouds2s.js:219-228 | a callback invocation is logged only when a callback was given |
| S2SSession.Context.Deliver | brainclouds2s.js:78-82 | a reply result goes to the caller's callback, or, for a keepalive, disconnects on failure |
| S2SSession.Context.ResumeAfterAuth | brainclouds2s.js:308-315 | the auto-authentication and re-authentication continuations send the queue head after success |
| S2SSession.Context.OnAuthResponse | brainclouds2s.js:112-135 | the authentication reply handler changes the context as `S2SSpec.AuthReplied` describes, preserving the invariant |
| S2SSession.Context.OnResponse | brainclouds2s.js:182-210 | the request reply handler changes the context as `S2SSpec.RequestReplied` describes, preserving the invariant |
| S2SSession.Context.RetryAfterExpiry | brainclouds2s.js:184-190 | the session-expired branch resets the session and re-authenticates |
| S2SSession.Context.Complete | brainclouds2s.js:193-209 | the completion branch notifies, drops the head, resets retries and sends the next head |
| S2SSession.Context.HeartbeatTick | brainclouds2s.js:71-83 | a tick sends the HEARTBEAT request outside the queue, preserving the invariant |
| RttUri.Decimal | brainclouds2s-rtt.js:50 | the port is written as a non-empty string of decimal digits without a leading zero whose base-10 value is the port, one digit exactly for ports below 10 |
| RttUri.UriShape | brainclouds2s-rtt.js:50-61 | the URI `Uri` starts with the scheme, host, `:` and port; an absent auth map adds nothing after them, a present one adds `?` and the joined arguments |
| RttUri.JoinedSnoc | brainclouds2s-rtt.js:54-60 | appending a pair to the auth map adds `&key=value` to the query, or just `key=value` to an empty one |
| RttUri.BuildUri | brainclouds2s-rtt.js:50-61 | the loop builds `ws://` or `wss://`, host, `:`, port, then `?` and the pairs joined by `&` when an auth map is present |
| RttUri.SplitNoAmp | brainclouds2s-rtt.js:55-58 | a piece without `&` is not split |
| RttUri.SplitAmpJoin | brainclouds2s-rtt.js:55-58 | splitting at `&` separates the first piece from the rest |
| RttUri.ParsePairOf | brainclouds2s-rtt.js:58 | a `key=value` piece whose key has no `=` reads back as that pair |
| RttUri.SplitJoined | brainclouds2s-rtt.js:54-60 | a non-empty unambiguous auth map is recovered from its `&`-joined pairs |
| RttUri.QueryRoundTrip | brainclouds2s-rtt.js:51-61 | the query of an auth map without `&` or `=` in keys and `&` in values parses back to the same pairs in the map's `for…in` enumeration order |
| RttUri.LiteralQueryIsAmbiguous | brainclouds2s-rtt.js:58 | without encoding, a value containing `&b=2` yields the same URI as a second pair, so the map cannot be recovered |
| RttUri.JoinedEnds | brainclouds2s-rtt.js:54-60 | the query starts with the first pair and ends with the last, with no leading or trailing `&` |
| RttUri.QueryEdgeCases | brainclouds2s-rtt.js:50-61 | an empty auth map leaves a bare trailing `?`, and an absent one adds nothing |
| Rtt.FindWsEndpoint | brainclouds2s-rtt.js:301-309 | returns the first endpoint whose protocol is `"ws"`, or none when no endpoint has it |
| Rtt.RttConnection.constructor | brainclouds2s-rtt.js:3-21 | the module starts DISCONNECTED with no socket, no heartbeat, no callbacks and an empty auth map |
| Rtt.RttConnection.RttIsEnabled | brainclouds2s-rtt.js:362-364 | enabled exactly while a socket is open |
| Rtt.RttConnection.EnableRTT | brainclouds2s-rtt.js:280-296 | clears the disconnect flag; while CONNECTED or CONNECTING nothing else changes; otherwise it stores the callbacks, becomes CONNECTING and sends one registration request |
| Rtt.RttConnection.Connect | brainclouds2s-rtt.js:45-65 | stores the auth map, opens the socket on the built URI and is CONNECTED before the socket opens |
| Rtt.RttConnection.OnRegistrationReply | brainclouds2s-rtt.js:296-321 | a non-200 reply, or a 200 reply without a `"ws"` endpoint (amended to status 0 and "WebSocket endpoint missing"), ends DISCONNECTED with the failure callback and no socket; otherwise the first `"ws"` endpoint is connected with the context's app id and session id |
| Rtt.RttConnection.OnSocketOpen | brainclouds2s-rtt.js:75-105 | while enabled, sends CONNECT with the captured app id and session id, profile `"s"`, protocol `"ws"`, platform `"WEB"` and the auth map; otherwise nothing |
| Rtt.RttConnection.DisableRTT | brainclouds2s-rtt.js:329-356 | acts only while CONNECTED: heartbeat cleared, socket gone, DISCONNECTED; in any other status nothing changes |
| Rtt.RttConnection.SocketLost | brainclouds2s-rtt.js:110-130 | while enabled the failure callback fires once with the tag, then the connection is disabled; otherwise nothing changes |
| Rtt.RttConnection.OnSocketClose | brainclouds2s-rtt.js:110-119 | while CONNECTED, `failure("close")` once and disabled; otherwise nothing |
| Rtt.RttConnection.OnSocketError | brainclouds2s-rtt.js:124-130 | while CONNECTED, `failure("error")` once and disabled; otherwise nothing |
| Rtt.RttConnection.StartHeartbeat | brainclouds2s-rtt.js:253-271 | starts the timer with the current heartbeat seconds unless one runs already, in which case nothing changes |
| Rtt.RttConnection.HeartbeatTick | brainclouds2s-rtt.js:255-269 | a tick sends one HEARTBEAT frame |
| Rtt.RttConnection.OnRecv | brainclouds2s-rtt.js:203-211 | a message goes unchanged to the observer when one is registered, and is dropped otherwise |
| Rtt.RttConnection.ProcessResult | brainclouds2s-rtt.js:138-163 | CONNECT takes the server's heartbeat seconds, starts the heartbeat and reports success; DISCONNECT only records reason and code; other `"rtt"` operations change nothing; other services go to the observer |
| Rtt.RttConnection.OnSocketMessage | brainclouds2s-rtt.js:136-137 | messages are ignored unless CONNECTED; while CONNECTED, each of the four routings of `ProcessResult` is stated (CONNECT, DISCONNECT, any other `"rtt"` operation changing nothing, and any other service going to the observer) |
| Rtt.RttConnection.RegisterRTTRawCallback | brainclouds2s-rtt.js:370-372 | registers the observer |
| Rtt.RttConnection.DeregisterRTTRawCallback | brainclouds2s-rtt.js:377-379 | removes the observer |

## Left out

- `s2sRequest` (brainclouds2s.js:16-67) is not modelled. It covers the HTTPS POST, chunk
  accumulation, Content-Length and JSON parsing. A call is "packet sent" plus a later reply
  event, and a transport error or unparsable body is a `None` reply.
- WebSocket objects and their listener registration are not modelled. An open socket is the
  URI it was opened with.
- The Blob/FileReader decoding in `onSocketMessage` (brainclouds2s-rtt.js:165-195) is not
  modelled. Messages arrive already decoded, so the source's passing of a string `e.data`
  unparsed to `processResult` is not modelled either.
- `setInterval`/`clearInterval` become an active flag plus a tick event. Intervals in wall-clock
  time are not modelled. The session's 30-minute interval is kept only as the constant
  `S2SProtocol.HEARTBEAT_INTERVAL_MS`. The RTT heartbeat keeps the seconds value its interval
  (1000 × seconds ms) is computed from.
- S2SOrdering.CallerRequestsSentInQueueOrder: packets and callbacks are logged separately, so
  "callback N runs before request N+1 is sent" is not stated over whole runs. It is shown per
  completion by `S2SProperties.CompletionAdvancesQueue`, where the callback and the next send
  happen in the same step, and for three requests by `S2SScenarios.BackToBackScenario`.
- Browser detection (`getBrowserName`, brainclouds2s-rtt.js:217-248) is not modelled, so the
  optional `browser` field of the CONNECT frame is left out.
- Logging and `setLogEnabled` are left out.
- The `try`/`catch` in `callCallback` is left out. Callbacks are total, except for the `reAuth`
  consequence recorded under Findings.
- The unused `context.authenticated` flag is left out.
- S2SProtocol.HeartbeatMessage: every `Message` carries a `data` map, so the keepalive message,
  which has no `data` key in the code (brainclouds2s.js:75-78), carries an empty map instead.
- Concurrency is not modelled. Each asynchronous completion is one atomic event.
- S2SSpec.Complete: a callback runs to the end of the completion before anything it calls.
  Its own calls become later events, after the completion has spliced the head and sent the
  next one (brainclouds2s.js:194-208). A re-entrant `request` ends the same either way. A
  re-entrant `disconnect` does not: the code empties the queue before the splice, so nothing
  more is sent, while the model has already sent the next head, whose reply still reaches its
  callback. A re-entrant `authenticate` does not either: the code sends the auth packet before
  the next head, the model after it.
- RttUri.AuthMap: the pairs are taken in the order JavaScript's `for…in` enumerates the
  `rttAuth` object (integer-like keys ascending, then the rest in insertion order). The model
  does not compute that order from the object's keys, and it does not exclude duplicate keys,
  which an object cannot have.
- The RTT wrappers at brainclouds2s.js:328-361 are not modelled. They only delegate to the RTT
  module.
- test.js is not part of this model. It is an integration test suite that runs against a live server.
- JSON `undefined` and `null` are one value (`Null`). For example, the RTT `DEFAULT_HEARTBEAT`
  starts as `Null`, and so does a missing `heartbeatSeconds`.
- Rtt.RttConnection.OnRegistrationReply: the registration callback is reached through the
  session's request queue. Here it is a separate event taking the reply and the context's app
  id and session id. It requires status CONNECTING, the only status in which a registration is
  outstanding. A null result (`None`) throws on `result.status`; the session swallows the
  exception and the connection stays CONNECTING.
- S2SSession.Context.HeartbeatTick: ticks are modelled only while the heartbeat runs
  (`requires heartbeatActive`). A cleared timer never fires.
- Rtt.RttConnection.HeartbeatTick: ticks are modelled only while the RTT heartbeat runs. The
  socket's own buffering of frames before `open` is not modelled.

## Findings

| source | as written | input that shows it | evidently intended | confidence | as-written member | corrected member |
|---|---|---|---|---|---|---|
| brainclouds2s.js:138-148 | the re-authentication continuation pushes `{json, callback}`, names not in scope, so it throws a ReferenceError that `callCallback` swallows; the expired request is never re-sent and the queue stalls until the next keepalive, whose reply drops that request without its callback (`S2SFindings.ReAuthAsWrittenDropsHeadAtKeepalive`) | a CONNECTED context whose in-flight request gets a reply with status 401 and reason_code 40365, followed by a successful authentication reply | re-send the queue head unchanged, without pushing a duplicate (lines 142-145) | not executed | S2SFindings.ReAuthAsWrittenStallsQueue | S2SFindings.ExpiredRequestIsResentUnchanged |
| brainclouds2s.js:161-171 | the queue is replaced by `[]` before the loop, and the loop iterates the new empty queue with `for…in` (indices, not entries); no queued callback ever fires | an authentication reply whose first message has status 500 while two requests with callbacks are queued | one callback per request that was queued (line 163) | not executed | S2SFindings.FailAllAsWrittenNotifiesNobody | S2SProperties.FailAllReachesEveryCallback |

=== FILE: common.dfy ===
/** Small value types shared by the session and the real-time connection models. */
module Common {

  /** An optional value; `None` stands for JavaScript's `null` or `undefined`. */
  datatype Option<+T> = None | Some(value: T)

  /** A decoded JSON scalar, as the protocol's fields carry them. `Null` also stands for a
      field that is absent (`undefined`), which the modelled code never tells apart from `null`. */
  datatype Json = Null | Num(n: int) | Str(s: string)

  /** The `data` object of a message: field name to scalar value. */
  type Fields = map<string, Json>

  /** Reads a field, giving `Null` when it is absent, as a JavaScript property read does. */
  function Field(fields: Fields, name: string): (v: Json)
    ensures name !in fields ==> v == Null
    ensures name in fields ==> v == fields[name]
  {
    if name in fields then fields[name] else Null
  }
}

=== FILE: rtt_connection.dfy ===
/** The real-time (RTT) connection: registration through the session, the WebSocket handshake,
    the RTT heartbeat, routing of incoming messages and tear-down. The process-wide module state
    of the source is one `RttConnection` object; the socket, its timer and the callbacks are
    modelled by the URI of the open socket, the seconds value the timer runs with, and logs of
    the frames sent and the callbacks invoked. */
module Rtt {
  import opened Common
  import opened RttUri
  import S2SProtocol

  datatype Status = Disconnected | Connecting | Connected | Disconnecting

  /** One entry of the registration reply's `data.endpoints`. */
  datatype Endpoint = Endpoint(protocol: string, host: string, port: nat, ssl: bool)

  /** What the registration request's callback receives, decoded: `status`, `status_message`,
      `data.endpoints` and `data.auth`. */
  datatype RegistrationReply = RegistrationReply(status: int, statusMessage: Option<string>,
                                                 endpoints: seq<Endpoint>, auth: Option<AuthMap>)

  /** A decoded message received on the socket. */
  datatype RttMessage = RttMessage(service: string, operation: string, data: Fields)

  /** A frame sent on the socket. */
  datatype Frame =
    | ConnectFrame(appId: Json, profileId: string, sessionId: Json, protocol: string,
                   platform: string, auth: Option<AuthMap>)
    | HeartbeatFrame

  /** The success/failure pair given to `enableRTT`, as callback numbers. */
  datatype ConnectCallback = ConnectCallback(success: nat, failure: nat)

  /** What a failure callback receives: the (possibly amended) registration reply, or a tag. */
  datatype FailureArg = RegistrationFailed(reply: RegistrationReply) | SocketFailed(tag: string)

  /** A callback invocation: a connect success, a connect failure, or the raw-message observer. */
  datatype Notice =
    | Succeeded(callback: nat, ack: RttMessage)
    | Failed(callback: nat, arg: FailureArg)
    | Pushed(observer: nat, message: RttMessage)

  /** The record kept when the server sends DISCONNECT. */
  datatype DisconnectInfo = DisconnectInfo(severity: string, reason: Json, reasonCode: Json)

  /** The channel-registration request sent through the session. */
  const RegistrationRequest: S2SProtocol.Message :=
    S2SProtocol.Message("rttRegistration", "REQUEST_SYSTEM_CONNECTION", map[])

  /** Index `i` is the first endpoint advertising the `"ws"` protocol. */
  predicate IsFirstWs(endpoints: seq<Endpoint>, i: nat)
  {
    i < |endpoints| && endpoints[i].protocol == "ws"
    && forall j :: 0 <= j < i ==> endpoints[j].protocol != "ws"
  }

  /** The endpoint search of the registration callback. */
  method FindWsEndpoint(endpoints: seq<Endpoint>) returns (found: Option<nat>)
    ensures found.Some? ==> IsFirstWs(endpoints, found.value)
    ensures found.None? ==> forall j :: 0 <= j < |endpoints| ==> endpoints[j].protocol != "ws"
  {
    var i := 0;
    while i < |endpoints|
      invariant 0 <= i <= |endpoints|
      invariant forall j :: 0 <= j < i ==> endpoints[j].protocol != "ws"
    {
      if endpoints[i].protocol == "ws" {
        return Some(i);
      }
      i := i + 1;
    }
    return None;
  }

  /** Every field of the connection, as a value. */
  datatype RttView = RttView(
    status: Status,
    connectCallback: Option<ConnectCallback>,
    defaultHeartbeat: Json,
    heartbeat: Option<Json>,
    disconnectedWithReason: bool,
    disconnectMessage: Option<DisconnectInfo>,
    rttAuth: Option<AuthMap>,
    rttCallback: Option<nat>,
    socket: Option<string>,
    appId: Json,
    sessionId: Json,
    registrations: seq<S2SProtocol.Message>,
    frames: seq<Frame>,
    notices: seq<Notice>)

  class RttConnection {
    var status: Status
    var connectCallback: Option<ConnectCallback>
    /** `DEFAULT_HEARTBEAT`: the heartbeat seconds of the last CONNECT acknowledgement. */
    var defaultHeartbeat: Json
    /** The heartbeat timer, holding the seconds value its interval was computed from
        (interval = 1000 * seconds milliseconds); `None` when no timer is scheduled. */
    var heartbeat: Option<Json>
    var disconnectedWithReason: bool
    var disconnectMessage: Option<DisconnectInfo>
    var rttAuth: Option<AuthMap>
    /** The registered raw-message observer. */
    var rttCallback: Option<nat>
    /** The open socket, by the URI it was opened with. */
    var socket: Option<string>
    var appId: Json
    var sessionId: Json
    /** Registration requests sent through the session, frames sent on sockets, and callbacks
        invoked, in order. */
    ghost var registrations: seq<S2SProtocol.Message>
    ghost var frames: seq<Frame>
    ghost var notices: seq<Notice>

    ghost function View(): RttView
      reads this
    {
      RttView(status, connectCallback, defaultHeartbeat, heartbeat, disconnectedWithReason,
              disconnectMessage, rttAuth, rttCallback, socket, appId, sessionId, registrations,
              frames, notices)
    }

    /** Between events: DISCONNECTING is never visible, a socket exists exactly while CONNECTED,
        the heartbeat runs only then, and a connection attempt always has its callbacks. */
    ghost predicate Valid()
      reads this
    {
      && status != Disconnecting
      && (socket.Some? <==> status == Connected)
      && (heartbeat.Some? ==> status == Connected)
      && (status == Connecting || status == Connected ==> connectCallback.Some?)
    }

    /** The module state when the module is loaded. */
    constructor ()
      ensures Valid()
      ensures View() == RttView(Disconnected, None, Null, None, false, None, Some([]), None, None,
                                Null, Null, [], [], [])
    {
      status := Disconnected;
      connectCallback := None;
      defaultHeartbeat := Null;
      heartbeat := None;
      disconnectedWithReason := false;
      disconnectMessage := None;
      rttAuth := Some([]);
      rttCallback := None;
      socket := None;
      appId := Null;
      sessionId := Null;
      registrations, frames, notices := [], [], [];
    }

    /** `rttIsEnabled`: enabled exactly while a socket is open. */
    function RttIsEnabled(): (enabled: bool)
      reads this
      ensures Valid() ==> (enabled <==> socket.Some?)
    {
      status == Connected
    }

    /** `enableRTT`: a no-op (apart from clearing the disconnect flag) while CONNECTED or
        CONNECTING; otherwise it records the callbacks, becomes CONNECTING and sends one
        registration request. */
    method EnableRTT(success: nat, failure: nat)
      requires Valid()
      modifies this
      ensures Valid()
      ensures old(status) == Connected || old(status) == Connecting ==>
                View() == old(View()).(disconnectedWithReason := false)
      ensures old(status) == Disconnected ==>
                View() == old(View()).(disconnectedWithReason := false, status := Connecting,
                                       connectCallback := Some(ConnectCallback(success, failure)),
                                       registrations := old(registrations) + [RegistrationRequest])
    {
      disconnectedWithReason := false;
      if RttIsEnabled() || status == Connecting {
        return;
      }
      connectCallback := Some(ConnectCallback(success, failure));
      status := Connecting;
      registrations := registrations + [RegistrationRequest];
    }

    /** `connect`: builds the URI and opens the socket; the status is CONNECTED from here on,
        before the socket has opened. */
    method Connect(host: string, port: nat, auth: Option<AuthMap>, ssl: bool)
      modifies this
      ensures View() == old(View()).(status := Connected, rttAuth := auth,
                                     socket := Some(Uri(ssl, host, port, auth)))
    {
      status := Connecting;
      rttAuth := auth;
      var uri := BuildUri(host, port, auth, ssl);
      status := Connected;
      socket := Some(uri);
    }

    /** The registration request's callback, run while the attempt is outstanding (CONNECTING).
        `result` is `None` for a null result, whose `status` read throws; the exception is
        swallowed by the session and nothing changes. `contextAppId` and `contextSessionId` are
        the session context's fields at that moment. */
    method OnRegistrationReply(result: Option<RegistrationReply>, contextAppId: string,
                               contextSessionId: Json)
      requires Valid() && status == Connecting
      modifies this
      ensures Valid()
      ensures result.None? ==> View() == old(View())
      ensures result.Some? && result.value.status != 200 ==>
                View() == old(View()).(status := Disconnected,
                  notices := old(notices) + [Failed(old(connectCallback).value.failure,
                                                    RegistrationFailed(result.value))])
      ensures result.Some? && result.value.status == 200
              && (forall j :: 0 <= j < |result.value.endpoints| ==> result.value.endpoints[j].protocol != "ws") ==>
                View() == old(View()).(status := Disconnected,
                  notices := old(notices) + [Failed(old(connectCallback).value.failure,
                    RegistrationFailed(result.value.(status := 0,
                                                     statusMessage := Some("WebSocket endpoint missing"))))])
      ensures forall i: nat :: (result.Some? && result.value.status == 200
                                && IsFirstWs(result.value.endpoints, i)) ==>
                var e := result.value.endpoints[i];
                View() == old(View()).(status := Connected, appId := Str(contextAppId),
                  sessionId := contextSessionId, rttAuth := result.value.auth,
                  socket := Some(Uri(e.ssl, e.host, e.port, result.value.auth)))
    {
      if result.None? {
        return;
      }
      var reply := result.value;
      if reply.status == 200 {
        var found := FindWsEndpoint(reply.endpoints);
        if found.Some? {
          var e := reply.endpoints[found.value];
          appId := Str(contextAppId);
          sessionId := contextSessionId;
          Connect(e.host, e.port, reply.auth, e.ssl);
          return;
        }
        var amended := reply.(status := 0, statusMessage := Some("WebSocket endpoint missing"));
        status := Disconnected;
        notices := notices + [Failed(connectCallback.value.failure, RegistrationFailed(amended))];
      } else {
        status := Disconnected;
        notices := notices + [Failed(connectCallback.value.failure, RegistrationFailed(reply))];
      }
    }

    /** The socket's `open` event: while enabled, sends the CONNECT frame with the captured app
        id and session id, profile `"s"`, protocol `"ws"`, platform `"WEB"` and the auth map. */
    method OnSocketOpen()
      requires Valid()
      modifies this
      ensures Valid()
      ensures old(status) == Connected ==>
                View() == old(View()).(frames := old(frames) +
                                         [ConnectFrame(appId, "s", sessionId, "ws", "WEB", rttAuth)])
      ensures old(status) != Connected ==> View() == old(View())
    {
      if RttIsEnabled() {
        frames := frames + [ConnectFrame(appId, "s", sessionId, "ws", "WEB", rttAuth)];
      }
    }

    /** `disableRTT`: acts only while CONNECTED, and then cancels the heartbeat, closes and
        forgets the socket and ends DISCONNECTED; otherwise nothing changes. */
    method DisableRTT()
      requires Valid()
      modifies this
      ensures Valid()
      ensures old(status) == Connected ==>
                View() == old(View()).(status := Disconnected, heartbeat := None, socket := None)
      ensures old(status) != Connected ==> View() == old(View())
    {
      if !RttIsEnabled() || status == Disconnecting {
        return;
      }
      status := Disconnecting;
      if heartbeat.Some? {
        heartbeat := None;
      }
      if socket.Some? {
        socket := None;
      }
      status := Disconnected;
    }

    /** Shared by the `close` and `error` events: while enabled, the failure callback gets the
        tag once, then the connection is disabled. */
    method SocketLost(tag: string)
      requires Valid()
      modifies this
      ensures Valid()
      ensures old(status) == Connected ==>
                View() == old(View()).(status := Disconnected, heartbeat := None, socket := None,
                  notices := old(notices) + [Failed(old(connectCallback).value.failure, SocketFailed(tag))])
      ensures old(status) != Connected ==> View() == old(View())
    {
      if RttIsEnabled() {
        notices := notices + [Failed(connectCallback.value.failure, SocketFailed(tag))];
      }
      DisableRTT();
    }

    /** The socket's `close` event. */
    method OnSocketClose()
      requires Valid()
      modifies this
      ensures Valid()
      ensures old(status) == Connected ==>
                View() == old(View()).(status := Disconnected, heartbeat := None, socket := None,
                  notices := old(notices) + [Failed(old(connectCallback).value.failure, SocketFailed("close"))])
      ensures old(status) != Connected ==> View() == old(View())
    {
      SocketLost("close");
    }

    /** The socket's `error` event. */
    method OnSocketError()
      requires Valid()
      modifies this
      ensures Valid()
      ensures old(status) == Connected ==>
                View() == old(View()).(status := Disconnected, heartbeat := None, socket := None,
                  notices := old(notices) + [Failed(old(connectCallback).value.failure, SocketFailed("error"))])
      ensures old(status) != Connected ==> View() == old(View())
    {
      SocketLost("error");
    }

    /** `startHeartbeat`: schedules the timer with the current `DEFAULT_HEARTBEAT` unless one is
        already scheduled. */
    method StartHeartbeat()
      modifies this
      ensures old(heartbeat).None? ==> View() == old(View()).(heartbeat := Some(defaultHeartbeat))
      ensures old(heartbeat).Some? ==> View() == old(View())
    {
      if heartbeat.None? {
        heartbeat := Some(defaultHeartbeat);
      }
    }

    /** A tick of the heartbeat timer: one HEARTBEAT frame on the socket. */
    method HeartbeatTick()
      requires Valid() && heartbeat.Some?
      modifies this
      ensures Valid()
      ensures View() == old(View()).(frames := old(frames) + [HeartbeatFrame])
    {
      frames := frames + [HeartbeatFrame];
    }

    /** `onRecv`: forwards the message unchanged to the observer, if one is registered. */
    method OnRecv(message: RttMessage)
      modifies this
      ensures View() == old(View()).(notices := old(notices) +
                (if old(rttCallback).Some? then [Pushed(old(rttCallback).value, message)] else []))
    {
      if rttCallback.Some? {
        notices := notices + [Pushed(rttCallback.value, message)];
      }
    }

    /** `processResult`: a CONNECT acknowledgement takes the server's heartbeat seconds, starts
        the heartbeat and reports success; DISCONNECT only records its reason and code; other
        `"rtt"` operations are ignored; any other service goes to the observer. */
    method ProcessResult(message: RttMessage)
      requires Valid() && status == Connected
      modifies this
      ensures Valid()
      ensures message.service == "rtt" && message.operation == "CONNECT" ==>
                var seconds := Field(message.data, "heartbeatSeconds");
                View() == old(View()).(defaultHeartbeat := seconds,
                  heartbeat := if old(heartbeat).None? then Some(seconds) else old(heartbeat),
                  notices := old(notices) + [Succeeded(old(connectCallback).value.success, message)])
      ensures message.service == "rtt" && message.operation == "DISCONNECT" ==>
                View() == old(View()).(disconnectedWithReason := true,
                  disconnectMessage := Some(DisconnectInfo("ERROR", Field(message.data, "reason"),
                                                           Field(message.data, "reasonCode"))))
      ensures (message.service == "rtt" && message.operation != "CONNECT"
               && message.operation != "DISCONNECT") ==> View() == old(View())
      ensures message.service != "rtt" ==>
                View() == old(View()).(notices := old(notices) +
                  (if old(rttCallback).Some? then [Pushed(old(rttCallback).value, message)] else []))
    {
      if message.service == "rtt" {
        if message.operation == "CONNECT" {
          defaultHeartbeat := Field(message.data, "heartbeatSeconds");
          StartHeartbeat();
          notices := notices + [Succeeded(connectCallback.value.success, message)];
        } else if message.operation == "DISCONNECT" {
          disconnectedWithReason := true;
          disconnectMessage := Some(DisconnectInfo("ERROR", Field(message.data, "reason"),
                                                   Field(message.data, "reasonCode")));
        }
      } else {
        OnRecv(message);
      }
    }

    /** The socket's `message` event, with the message already decoded: ignored unless
        enabled. */
    method OnSocketMessage(message: RttMessage)
      requires Valid()
      modifies this
      ensures Valid()
      ensures old(status) != Connected ==> View() == old(View())
      ensures old(status) == Connected && message.service != "rtt" ==>
                View() == old(View()).(notices := old(notices) +
                  (if old(rttCallback).Some? then [Pushed(old(rttCallback).value, message)] else []))
      ensures old(status) == Connected && message.service == "rtt" && message.operation == "CONNECT" ==>
                var seconds := Field(message.data, "heartbeatSeconds");
                View() == old(View()).(defaultHeartbeat := seconds,
                  heartbeat := if old(heartbeat).None? then Some(seconds) else old(heartbeat),
                  notices := old(notices) + [Succeeded(old(connectCallback).value.success, message)])
      ensures old(status) == Connected && message.service == "rtt" && message.operation == "DISCONNECT" ==>
                View() == old(View()).(disconnectedWithReason := true,
                  disconnectMessage := Some(DisconnectInfo("ERROR", Field(message.data, "reason"),
                                                           Field(message.data, "reasonCode"))))
      ensures (old(status) == Connected && message.service == "rtt" && message.operation != "CONNECT"
               && message.operation != "DISCONNECT") ==> View() == old(View())
    {
      if RttIsEnabled() {
        ProcessResult(message);
      }
    }

    /** `registerRTTRawCallback`. */
    method RegisterRTTRawCallback(observer: nat)
      modifies this
      ensures View() == old(View()).(rttCallback := Some(observer))
    {
      rttCallback := Some(observer);
    }

    /** `deregisterRTTRawCallback`. */
    method DeregisterRTTRawCallback()
      modifies this
      ensures View() == old(View()).(rttCallback := None)
    {
      rttCallback := None;
    }
  }
}

=== FILE: rtt_uri.dfy ===
/** The WebSocket URI of the real-time connection: scheme, host, port and the registration's auth
    parameters as a query, joined by literal concatenation with no percent-encoding. */
module RttUri {
  import opened Common

  /** The auth parameter mapping, as key/value pairs in the order a `for…in` loop enumerates the
      object: integer-like keys ascending, then the other keys in insertion order. */
  type AuthMap = seq<(string, string)>

  function Scheme(ssl: bool): string
  {
    if ssl then "wss://" else "ws://"
  }

  function Digit(d: nat): (c: char)
    requires d < 10
    ensures '0' <= c <= '9'
  {
    (48 + d) as char
  }

  /** The number a string of decimal digits denotes, most significant digit first. */
  function DigitsValue(s: string): nat
    requires forall i :: 0 <= i < |s| ==> '0' <= s[i] <= '9'
  {
    if s == [] then 0 else DigitsValue(s[..|s| - 1]) * 10 + (s[|s| - 1] as int - '0' as int)
  }

  /** The decimal text of a port number, as JavaScript's string concatenation renders it: digits
      only, no leading zero, denoting the port. */
  function Decimal(n: nat): (r: string)
    ensures |r| >= 1
    ensures forall i :: 0 <= i < |r| ==> '0' <= r[i] <= '9'
    ensures DigitsValue(r) == n
    ensures |r| > 1 ==> r[0] != '0'
    ensures n < 10 <==> |r| == 1
  {
    if n < 10 then [Digit(n)]
    else
      var high := Decimal(n / 10);
      var r := high + [Digit(n % 10)];
      assert r[..|r| - 1] == high;
      r
  }

  /** One `key=value` argument. */
  function Pair(kv: (string, string)): string
  {
    kv.0 + "=" + kv.1
  }

  /** The arguments separated by single `&`. */
  function Joined(m: AuthMap): string
  {
    if m == [] then ""
    else if |m| == 1 then Pair(m[0])
    else Pair(m[0]) + "&" + Joined(m[1..])
  }

  /** The query part: nothing when the mapping is absent, otherwise `?` and the arguments. */
  function Query(auth: Option<AuthMap>): string
  {
    if auth.None? then "" else "?" + Joined(auth.value)
  }

  /** The URI `connect` opens. */
  function Uri(ssl: bool, host: string, port: nat, auth: Option<AuthMap>): string
  {
    Scheme(ssl) + host + ":" + Decimal(port) + Query(auth)
  }

  /** The URI starts with the scheme, host, `:` and port; an absent mapping adds nothing after
      them, a present one adds `?` followed by the joined arguments. */
  lemma UriShape(ssl: bool, host: string, port: nat, auth: Option<AuthMap>)
    ensures var base := Scheme(ssl) + host + ":" + Decimal(port);
      var r := Uri(ssl, host, port, auth);
      && |base| <= |r| && r[..|base|] == base
      && (auth.None? ==> |r| == |base|)
      && (auth.Some? ==> |r| > |base| && r[|base|] == '?' && r[|base| + 1..] == Joined(auth.value))
  {
    var base := Scheme(ssl) + host + ":" + Decimal(port);
    assert Uri(ssl, host, port, auth) == base + Query(auth);
  }

  lemma {:induction false} JoinedSnoc(m: AuthMap, kv: (string, string))
    ensures Joined(m + [kv]) == if m == [] then Pair(kv) else Joined(m) + "&" + Pair(kv)
    decreases |m|
  {
    if |m| >= 2 {
      JoinedSnoc(m[1..], kv);
      assert (m + [kv])[1..] == m[1..] + [kv];
    } else if |m| == 1 {
      assert (m + [kv])[1..] == [kv];
    }
  }

  /** `connect`'s URI construction: the loop over the mapping writes `&` before every argument but
      the first. */
  method BuildUri(host: string, port: nat, auth: Option<AuthMap>, ssl: bool) returns (uri: string)
    ensures uri == Uri(ssl, host, port, auth)
  {
    uri := (if ssl then "wss://" else "ws://") + host + ":" + Decimal(port);
    if auth.Some? {
      ghost var prefix := uri + "?";
      uri := uri + "?";
      var m := auth.value;
      var count := 0;
      while count < |m|
        invariant 0 <= count <= |m|
        invariant uri == prefix + Joined(m[..count])
      {
        JoinedSnoc(m[..count], m[count]);
        assert m[..count + 1] == m[..count] + [m[count]];
        if count > 0 {
          uri := uri + "&";
        }
        uri := uri + m[count].0 + "=" + m[count].1;
        count := count + 1;
      }
      assert m[..count] == m;
    }
  }

  // ---------------------------------------------------------------------------------------
  // Reading the query back

  /** The pieces of `s` between `&` separators. */
  function SplitAmp(s: string): (r: seq<string>)
    ensures |r| >= 1
  {
    if s == [] then [""]
    else
      var rest := SplitAmp(s[1..]);
      if s[0] == '&' then [""] + rest else [[s[0]] + rest[0]] + rest[1..]
  }

  /** Splits one argument at its first `=`. */
  function ParsePair(t: string): (string, string)
  {
    if t == [] then ("", "")
    else if t[0] == '=' then ("", t[1..])
    else var kv := ParsePair(t[1..]); ([t[0]] + kv.0, kv.1)
  }

  function ParseArgs(pieces: seq<string>): AuthMap
  {
    if pieces == [] then [] else [ParsePair(pieces[0])] + ParseArgs(pieces[1..])
  }

  /** The query arguments of `q` (the text after `?`). */
  function ParseQuery(q: string): AuthMap
  {
    if q == "" then [] else ParseArgs(SplitAmp(q))
  }

  /** A mapping the literal concatenation can carry unambiguously: no key holds `&` or `=`, and
      no value holds `&`. */
  predicate Unambiguous(m: AuthMap)
  {
    forall i :: 0 <= i < |m| ==> '&' !in m[i].0 && '=' !in m[i].0 && '&' !in m[i].1
  }

  lemma {:induction false} SplitNoAmp(a: string)
    requires '&' !in a
    ensures SplitAmp(a) == [a]
    decreases |a|
  {
    if a != [] {
      SplitNoAmp(a[1..]);
      assert [a[0]] + a[1..] == a;
    }
  }

  lemma {:induction false} SplitAmpJoin(a: string, b: string)
    requires '&' !in a
    ensures SplitAmp(a + "&" + b) == [a] + SplitAmp(b)
    decreases |a|
  {
    if a == [] {
      assert a + "&" + b == "&" + b;
      assert ("&" + b)[1..] == b;
    } else {
      SplitAmpJoin(a[1..], b);
      assert (a + "&" + b)[1..] == a[1..] + "&" + b;
      assert [a[0]] + a[1..] == a;
    }
  }

  lemma {:induction false} ParsePairOf(k: string, v: string)
    requires '=' !in k
    ensures ParsePair(k + "=" + v) == (k, v)
    decreases |k|
  {
    if k == [] {
      assert k + "=" + v == "=" + v;
      assert ("=" + v)[1..] == v;
    } else {
      ParsePairOf(k[1..], v);
      assert (k + "=" + v)[1..] == k[1..] + "=" + v;
      assert [k[0]] + k[1..] == k;
    }
  }

  lemma {:induction false} SplitJoined(m: AuthMap)
    requires m != [] && Unambiguous(m)
    ensures ParseArgs(SplitAmp(Joined(m))) == m
    decreases |m|
  {
    assert '&' !in Pair(m[0]) by {
      assert '&' !in m[0].0 && '&' !in m[0].1;
    }
    ParsePairOf(m[0].0, m[0].1);
    if |m| == 1 {
      SplitNoAmp(Pair(m[0]));
    } else {
      assert Unambiguous(m[1..]) by {
        forall i | 0 <= i < |m[1..]| ensures '&' !in m[1..][i].0 && '=' !in m[1..][i].0 && '&' !in m[1..][i].1 {
          assert m[1..][i] == m[i + 1];
        }
      }
      SplitJoined(m[1..]);
      SplitAmpJoin(Pair(m[0]), Joined(m[1..]));
      assert [m[0]] + m[1..] == m;
    }
  }

  /** Reading back the query `connect` writes gives the mapping, in order, whenever the mapping
      is unambiguous. */
  lemma QueryRoundTrip(m: AuthMap)
    requires Unambiguous(m)
    ensures ParseQuery(Joined(m)) == m
  {
    if m != [] {
      SplitJoined(m);
      assert |Pair(m[0])| >= 1;
      assert Joined(m) != "" by {
        if |m| == 1 { assert Joined(m) == Pair(m[0]); }
        else { assert Joined(m) == Pair(m[0]) + "&" + Joined(m[1..]); }
      }
    }
  }

  /** Without percent-encoding, a value that holds `&` reads back as two arguments: two different
      mappings give the same URI. */
  lemma LiteralQueryIsAmbiguous()
    ensures Joined([("a", "1&b=2")]) == Joined([("a", "1"), ("b", "2")])
    ensures ParseQuery(Joined([("a", "1&b=2")])) == [("a", "1"), ("b", "2")]
  {
    var m := [("a", "1"), ("b", "2")];
    assert Unambiguous(m);
    QueryRoundTrip(m);
  }

  /** The query of a present mapping starts with `?` and the first argument and ends with the
      last one, so it neither starts nor ends with a separator of its own. */
  lemma {:induction false} JoinedEnds(m: AuthMap)
    requires m != []
    ensures |Joined(m)| >= |Pair(m[0])| && |Joined(m)| >= |Pair(m[|m| - 1])|
    ensures Joined(m)[..|Pair(m[0])|] == Pair(m[0])
    ensures Joined(m)[|Joined(m)| - |Pair(m[|m| - 1])|..] == Pair(m[|m| - 1])
    decreases |m|
  {
    if |m| > 1 {
      JoinedEnds(m[1..]);
      assert m[1..][|m[1..]| - 1] == m[|m| - 1];
      assert Joined(m) == Pair(m[0]) + ("&" + Joined(m[1..]));
      assert Joined(m) == (Pair(m[0]) + "&") + Joined(m[1..]);
    }
  }

  /** An empty mapping leaves a bare `?`; an absent one adds nothing. */
  lemma QueryEdgeCases(ssl: bool, host: string, port: nat)
    ensures Uri(ssl, host, port, Some([])) == Scheme(ssl) + host + ":" + Decimal(port) + "?"
    ensures Uri(ssl, host, port, None) == Scheme(ssl) + host + ":" + Decimal(port)
  {
  }
}

=== FILE: s2s_context.dfy ===
/** The session context object and the functions that change it, as a class whose methods update
    its fields step by step. Each method is proved to follow the matching transition of
    `S2SSpec`; the public operations and completion events also keep `S2SSpec.Valid`. */
module S2SSession {
  import opened Common
  import opened S2SProtocol
  import S2SSpec
  import S2SProperties

  class Context {
    const config: Config
    const autoAuth: bool
    var state: State
    var packetId: int
    var sessionId: Json
    /** Whether the heartbeat interval timer is scheduled (the handle is not `null`). */
    var heartbeatActive: bool
    var retryCount: nat
    var requestQueue: seq<QueuedRequest>
    /** The transport calls awaiting their reply, each with the closure its reply will run. */
    var inFlight: seq<Call>
    /** Envelopes handed to the transport, in order. */
    ghost var sent: seq<Packet>
    /** Why each envelope was sent. */
    ghost var origins: seq<S2SSpec.Origin>
    /** Caller callbacks invoked, in order. */
    ghost var delivered: seq<Delivery>
    /** Every request ever queued, and every request that has left the queue, in order. */
    ghost var history: seq<QueuedRequest>
    ghost var retired: seq<QueuedRequest>

    /** The context as a value. */
    ghost function Snap(): S2SSpec.Snapshot
      reads this
    {
      S2SSpec.Snapshot(config, state, packetId, sessionId, heartbeatActive, autoAuth, retryCount,
                       requestQueue, inFlight, sent, origins, delivered, history, retired)
    }

    /** `init`: a DISCONNECTED context with packet id 0, no session, no retries, an empty queue,
        no heartbeat, and the default host when no url is given. */
    constructor Init(appId: string, serverName: string, serverSecret: string, url: Option<string>,
                     autoAuth: bool)
      ensures Snap() == S2SSpec.Init(appId, serverName, serverSecret, url, autoAuth)
      ensures state == Disconnected && packetId == 0 && sessionId == Null && retryCount == 0
      ensures requestQueue == [] && !heartbeatActive && this.autoAuth == autoAuth
      ensures config.url == (if url == None || url == Some("") then DEFAULT_URL else url.value)
      ensures S2SSpec.Valid(Snap())
    {
      var host := if url.None? || url.value == "" then DEFAULT_URL else url.value;
      config := Config(host, appId, serverName, serverSecret);
      state := Disconnected;
      packetId := 0;
      sessionId := Null;
      heartbeatActive := false;
      this.autoAuth := autoAuth;
      retryCount := 0;
      requestQueue := [];
      inFlight := [];
      sent, origins, delivered, history, retired := [], [], [], [], [];
    }

    method StopHeartbeat()
      modifies this
      ensures Snap() == old(Snap()).(heartbeat := false)
    {
      if heartbeatActive {
        heartbeatActive := false;
      }
    }

    /** Cancels any running timer before scheduling a new one, so at most one runs. */
    method StartHeartbeat()
      modifies this
      ensures Snap() == S2SSpec.StartHeartbeat(old(Snap()))
    {
      StopHeartbeat();
      heartbeatActive := true;
    }

    /** Internal `request`: sends `json` in an envelope with the current packet id and session
        id, then advances the packet id. */
    method Send(json: Message, replyTo: ReplyTo)
      modifies this
      ensures Snap() == S2SSpec.Send(old(Snap()), json, replyTo)
    {
      var packet := Packet(packetId, Some(sessionId), [json]);
      packetId := packetId + 1;
      origins := origins + [if replyTo.ToCaller? then S2SSpec.FromQueue(|retired|) else S2SSpec.FromHeartbeat];
      sent := sent + [packet];
      inFlight := inFlight + [RequestCall(json, replyTo)];
    }

    method AuthenticateInternal(after: AfterAuth)
      modifies this
      ensures Snap() == S2SSpec.AuthenticateInternal(old(Snap()), after)
    {
      state := Authenticating;
      sent := sent + [AuthPacket(config)];
      origins := origins + [S2SSpec.FromAuth];
      inFlight := inFlight + [AuthCall(after)];
    }

    method ReAuth()
      modifies this
      ensures Snap() == S2SSpec.AuthenticateInternal(old(Snap()), ResumeAfterReAuth)
    {
      AuthenticateInternal(ResumeAfterReAuth);
    }

    method QueueRequest(json: Message, callback: Callback)
      modifies this
      ensures Snap() == S2SSpec.QueueRequest(old(Snap()), json, callback)
    {
      requestQueue := requestQueue + [QueuedRequest(json, callback)];
      history := history + [QueuedRequest(json, callback)];
      if |requestQueue| == 1 && state != Authenticating {
        Send(json, ToCaller(callback));
      }
    }

    /** Snapshots the queue, clears it, then gives each snapshot entry's callback `o`. */
    method FailAllRequests(o: Outcome)
      modifies this
      ensures Snap() == S2SSpec.FailAllRequests(old(Snap()), o)
    {
      var snapshot := requestQueue;
      requestQueue := [];
      retired := retired + snapshot;
      var i := 0;
      while i < |snapshot|
        invariant 0 <= i <= |snapshot|
        invariant Snap() == old(Snap()).(queue := [], retired := old(retired) + snapshot,
                                          delivered := old(delivered) + S2SSpec.Notify(snapshot[..i], o))
      {
        if snapshot[i].callback.User? {
          delivered := delivered + [Delivery(snapshot[i].callback.id, o)];
        }
        assert snapshot[..i + 1][..i] == snapshot[..i];
        i := i + 1;
      }
      assert snapshot[..i] == snapshot;
    }

    /** Exported `disconnect`. */
    method Disconnect()
      modifies this
      ensures Snap() == S2SSpec.Disconnect(old(Snap()))
      ensures S2SSpec.Valid(old(Snap())) ==> S2SSpec.Valid(Snap())
    {
      StopHeartbeat();
      state := Disconnected;
      retryCount := 0;
      packetId := 0;
      sessionId := Null;
      retired := retired + requestQueue;
      requestQueue := [];
    }

    /** Exported `authenticate`. */
    method Authenticate(callback: Callback)
      modifies this
      ensures Snap() == S2SSpec.Authenticate(old(Snap()), callback)
      ensures S2SSpec.Valid(old(Snap())) ==> S2SSpec.Valid(Snap())
    {
      AuthenticateInternal(AuthCaller(callback));
    }

    /** Exported `request`. */
    method Request(json: Message, callback: Callback)
      modifies this
      ensures Snap() == S2SSpec.Request(old(Snap()), json, callback)
      ensures S2SSpec.Valid(old(Snap())) ==> S2SSpec.Valid(Snap())
    {
      ghost var before := Snap();
      if state == Disconnected && autoAuth {
        AuthenticateInternal(ResumeAfterAutoAuth);
      }
      QueueRequest(json, callback);
      if S2SSpec.Valid(before) {
        S2SProperties.RequestValid(before, json, callback);
      }
    }

    /** `callCallback` for a caller's callback. */
    method Invoke(callback: Callback, o: Outcome)
      modifies this
      ensures Snap() == S2SSpec.Invoke(old(Snap()), callback, o)
    {
      if callback.User? {
        delivered := delivered + [Delivery(callback.id, o)];
      }
    }

    method Deliver(replyTo: ReplyTo, o: Outcome)
      modifies this
      ensures Snap() == S2SSpec.Deliver(old(Snap()), replyTo, o)
    {
      match replyTo
      case ToCaller(callback) =>
        Invoke(callback, o);
      case ToHeartbeat =>
        if !ReplySucceeded(o) {
          Disconnect();
        }
    }

    /** The continuation of an authentication call. */
    method ResumeAfterAuth(after: AfterAuth, o: Outcome)
      modifies this
      ensures Snap() == S2SSpec.ResumeAfterAuth(old(Snap()), after, o)
    {
      match after
      case AuthCaller(callback) =>
        Invoke(callback, o);
      case ResumeAfterAutoAuth =>
        if state == Connected && o.MessageResult? && o.message.status == 200 {
          if |requestQueue| > 0 {
            var next := requestQueue[0];
            Send(next.json, ToCaller(next.callback));
          }
        }
      case ResumeAfterReAuth =>
        if o != NoResult && |requestQueue| > 0 {
          var next := requestQueue[0];
          Send(next.json, ToCaller(next.callback));
        }
    }

    /** The transport's reply to authentication call `k` (`None`: transport or parse failure). */
    method OnAuthResponse(k: nat, data: Option<Response>)
      requires k < |inFlight| && inFlight[k].AuthCall?
      modifies this
      ensures Snap() == S2SSpec.AuthReplied(old(Snap()), k, data)
      ensures S2SSpec.Valid(old(Snap())) ==> S2SSpec.Valid(Snap())
    {
      ghost var before := Snap();
      var after := inFlight[k].after;
      inFlight := inFlight[..k] + inFlight[k + 1..];
      if data.Some? && |data.value.messageResponses| > 0 {
        var message := data.value.messageResponses[0];
        if message.status == 200 {
          state := Connected;
          packetId := data.value.packetId + 1;
          sessionId := SessionIdOf(message);
          StartHeartbeat();
        } else {
          FailAllRequests(MessageResult(message));
        }
        ResumeAfterAuth(after, MessageResult(message));
      } else {
        FailAllRequests(NoResult);
        Disconnect();
        ResumeAfterAuth(after, NoResult);
      }
      if S2SSpec.Valid(before) {
        S2SProperties.AuthRepliedValid(before, k, data);
      }
    }

    /** The transport's reply to request call `k` (`None`: transport or parse failure). */
    method OnResponse(k: nat, data: Option<Response>)
      requires k < |inFlight| && inFlight[k].RequestCall?
      modifies this
      ensures Snap() == S2SSpec.RequestReplied(old(Snap()), k, data)
      ensures S2SSpec.Valid(old(Snap())) ==> S2SSpec.Valid(Snap())
    {
      ghost var before := Snap();
      var replyTo := inFlight[k].replyTo;
      inFlight := inFlight[..k] + inFlight[k + 1..];
      if IsSessionExpiry(data, retryCount) {
        RetryAfterExpiry();
      } else {
        Complete(replyTo, ResultFor(data));
      }
      if S2SSpec.Valid(before) {
        S2SProperties.RequestRepliedValid(before, k, data);
      }
    }

    method RetryAfterExpiry()
      modifies this
      ensures Snap() == S2SSpec.RetryAfterExpiry(old(Snap()))
    {
      StopHeartbeat();
      retryCount := retryCount + 1;
      packetId := 0;
      sessionId := Null;
      ReAuth();
    }

    method Complete(replyTo: ReplyTo, o: Outcome)
      modifies this
      ensures Snap() == S2SSpec.Complete(old(Snap()), replyTo, o)
    {
      Deliver(replyTo, o);
      if |requestQueue| > 0 {
        retired := retired + [requestQueue[0]];
        requestQueue := requestQueue[1..];
      }
      retryCount := 0;
      if |requestQueue| > 0 {
        var next := requestQueue[0];
        Send(next.json, ToCaller(next.callback));
      }
    }

    /** A tick of the heartbeat timer. */
    method HeartbeatTick()
      requires heartbeatActive
      modifies this
      ensures Snap() == S2SSpec.HeartbeatTick(old(Snap()))
      ensures S2SSpec.Valid(old(Snap())) ==> S2SSpec.Valid(Snap())
    {
      Send(HeartbeatMessage, ToHeartbeat);
    }
  }
}

=== FILE: s2s_findings.dfy ===
/** Behaviours of the session source that differ from its evident intent, each stated next to the
    corrected behaviour the rest of the model uses, and the two places where the dispatcher's
    ordering discipline depends on how the context is used. */
module S2SFindings {
  import opened Common
  import opened S2SProtocol
  import opened S2SSpec
  import opened S2SProperties

  /** As written, a successful re-authentication never re-sends the request that met the expired
      session: the context is CONNECTED with that request still at the head of the queue and
      nothing in flight, and a later request is queued behind it without being sent either. */
  lemma ReAuthAsWrittenStallsQueue(s: Snapshot, o: Outcome, json: Message, callback: Callback)
    requires s.state == Connected && s.queue != [] && s.inFlight == [] && o != NoResult
    ensures var r := ReAuthContinuationAsWritten(s, o);
      r.queue == s.queue && r.inFlight == [] && r.sent == s.sent
    ensures var r := QueueRequest(ReAuthContinuationAsWritten(s, o), json, callback);
      r.inFlight == [] && r.sent == s.sent
  {
  }

  /** As written, the stall ends at the next keepalive: the successful re-authentication started
      the heartbeat, and the keepalive's successful reply removes the stalled request from the
      queue without ever calling its callback, then sends the next queued request. */
  lemma ReAuthAsWrittenDropsHeadAtKeepalive(s: Snapshot, o: Outcome, packetId: int)
    requires s.state == Connected && s.heartbeat && s.queue != [] && s.inFlight == []
    ensures var t := HeartbeatTick(ReAuthContinuationAsWritten(s, o));
      var r := RequestReplied(t, 0, Some(Response(200, 0, packetId, [])));
      && r.queue == s.queue[1..] && r.retired == s.retired + [s.queue[0]]
      && r.delivered == s.delivered
      && (|s.queue| > 1 ==> r.inFlight == [RequestCall(s.queue[1].json, ToCaller(s.queue[1].callback))])
      && (|s.queue| == 1 ==> r.inFlight == [])
  {
  }

  /** With the evident intent, a request that met an expired session is, once re-authentication
      succeeds, sent again unchanged as the next packet of the new session, and stays the only
      call in flight. */
  lemma ExpiredRequestIsResentUnchanged(s: Snapshot, expired: Option<Response>, auth: Option<Response>)
    requires Orderly(s) && |s.inFlight| == 1 && s.inFlight[0].RequestCall?
    requires s.inFlight[0].replyTo.ToCaller?
    requires IsSessionExpiry(expired, s.retryCount)
    requires auth.Some? && |auth.value.messageResponses| > 0
    requires auth.value.messageResponses[0].status == 200
    ensures var t := RequestReplied(s, 0, expired);
      t.inFlight == [AuthCall(ResumeAfterReAuth)]
      && var r := AuthReplied(t, 0, auth);
      var head := s.queue[0];
      var sid := SessionIdOf(auth.value.messageResponses[0]);
      && r.queue == s.queue
      && r.sent == s.sent + [AuthPacket(s.config), Packet(auth.value.packetId + 1, Some(sid), [head.json])]
      && r.inFlight == [RequestCall(head.json, ToCaller(head.callback))]
      && r.delivered == s.delivered
  {
    assert CallFits(s, s.inFlight[0]);
    SessionExpiryReAuthenticates(s, 0, expired);
    var t := RequestReplied(s, 0, expired);
    AuthSucceeded(t, 0, auth);
  }

  /** As written, failing the queue invokes no callback at all, while every queued request with a
      callback is owed one. */
  lemma FailAllAsWrittenNotifiesNobody(s: Snapshot, o: Outcome, i: nat)
    requires i < |s.queue| && s.queue[i].callback.User?
    ensures FailAllRequestsAsWritten(s, o).delivered == s.delivered
    ensures FailAllRequestsAsWritten(s, o).queue == []
    ensures Delivery(s.queue[i].callback.id, o) in FailAllRequests(s, o).delivered[|s.delivered|..]
  {
    FailAllReachesEveryCallback(s, o, i);
    var d := FailAllRequests(s, o).delivered;
    assert d[|s.delivered|..] == Notify(s.queue[..i], o) + [Delivery(s.queue[i].callback.id, o)]
                                 + Notify(s.queue[i + 1..], o);
  }

  /** The keepalive bypasses the queue: a request made while it is in flight is sent at once, so
      two calls are in flight; and the keepalive's reply then removes that request from the queue
      although its own reply is still to come. */
  lemma HeartbeatBypassesQueue(s: Snapshot, json: Message, callback: Callback, status: int)
    requires Orderly(s) && s.heartbeat && s.state == Connected && s.queue == [] && s.inFlight == []
    ensures var t := Request(HeartbeatTick(s), json, callback);
      && t.inFlight == [RequestCall(HeartbeatMessage, ToHeartbeat), RequestCall(json, ToCaller(callback))]
      && !Orderly(t)
      && var r := RequestReplied(t, 0, Some(Response(200, 0, s.packetId, [])));
      r.queue == [] && r.inFlight == [RequestCall(json, ToCaller(callback))]
      && r.retired == s.retired + [QueuedRequest(json, callback)]
  {
  }

  /** Requests made while an explicit `authenticate` is in progress are only queued, and its
      success does not release them: the context ends CONNECTED with the queue waiting and nothing
      in flight. */
  lemma ExplicitAuthDoesNotReleaseQueue(s: Snapshot, cb: Callback, json: Message, qcb: Callback,
                                        auth: Option<Response>)
    requires s.inFlight == [] && s.queue == []
    requires auth.Some? && |auth.value.messageResponses| > 0
    requires auth.value.messageResponses[0].status == 200
    ensures var t := Request(Authenticate(s, cb), json, qcb);
      && t.queue == [QueuedRequest(json, qcb)] && t.inFlight == [AuthCall(AuthCaller(cb))]
      && var r := AuthReplied(t, 0, auth);
      && r.state == Connected && r.queue == [QueuedRequest(json, qcb)] && r.inFlight == []
      && r.sent == s.sent + [AuthPacket(s.config)]
  {
  }
}

=== FILE: s2s_ordering.dfy ===
/** The transport sees caller requests in the order they were queued. Every envelope carries a
    recorded origin. Every caller envelope carries the request at its recorded position in the
    queue order, and those positions never go back. A position repeats only when that request is
    sent again after a re-authentication. This holds for every run, with no discipline on the
    caller: a caller's request is only ever sent as the head of the queue. */
module S2SOrdering {
  import opened Common
  import opened S2SProtocol
  import opened S2SSpec
  import opened S2SProperties

  /** Envelope `p` is what its origin says: the authentication packet, a keepalive, or the
      request at its position in the queue order, which has already reached the head. */
  predicate OriginFits(s: Snapshot, p: nat)
    requires p < |s.sent| && p < |s.origins|
  {
    match s.origins[p]
    case FromAuth => s.sent[p] == AuthPacket(s.config)
    case FromHeartbeat => s.sent[p].messages == [HeartbeatMessage]
    case FromQueue(pos) =>
      pos <= |s.retired| && pos < |s.history| && s.sent[p].messages == [s.history[pos].json]
  }

  /** Every envelope has an origin that fits it, and caller envelopes follow the queue order. */
  predicate Ordered(s: Snapshot)
  {
    && |s.origins| == |s.sent|
    && (forall p :: 0 <= p < |s.sent| ==> OriginFits(s, p))
    && (forall p, q :: 0 <= p < q < |s.origins| && s.origins[p].FromQueue? && s.origins[q].FromQueue?
                       ==> s.origins[p].position <= s.origins[q].position)
  }

  lemma InitOrdered(appId: string, serverName: string, serverSecret: string, url: Option<string>,
                    autoAuth: bool)
    ensures Ordered(Init(appId, serverName, serverSecret, url, autoAuth))
  {
  }

  /** A change that sends nothing, only appends to the queue order and only retires requests
      keeps the order. */
  lemma QuietOrdered(s: Snapshot, r: Snapshot)
    requires Ordered(s)
    requires r.config == s.config && r.sent == s.sent && r.origins == s.origins
    requires |s.history| <= |r.history| && r.history[..|s.history|] == s.history
    requires |s.retired| <= |r.retired|
    ensures Ordered(r)
  {
    forall p | 0 <= p < |r.sent| ensures OriginFits(r, p) {
      assert OriginFits(s, p);
      if r.origins[p].FromQueue? {
        assert r.history[r.origins[p].position] == r.history[..|s.history|][r.origins[p].position];
      }
    }
  }

  /** Sending the queue head, or a keepalive, keeps the order. */
  lemma SendOrdered(s: Snapshot, json: Message, replyTo: ReplyTo)
    requires Ordered(s) && Valid(s)
    requires replyTo.ToCaller? ==> s.queue != [] && json == s.queue[0].json
    requires replyTo.ToHeartbeat? ==> json == HeartbeatMessage
    ensures Ordered(Send(s, json, replyTo))
  {
    var r := Send(s, json, replyTo);
    var n := |s.sent|;
    forall p | 0 <= p < |r.sent| ensures OriginFits(r, p) {
      if p < n {
        assert OriginFits(s, p);
      } else if replyTo.ToCaller? {
        assert s.history[|s.retired|] == s.queue[0];
      }
    }
    forall p, q | 0 <= p < q < |r.origins| && r.origins[p].FromQueue? && r.origins[q].FromQueue?
      ensures r.origins[p].position <= r.origins[q].position
    {
      if q == n { assert OriginFits(s, p); }
    }
  }

  lemma AuthenticateOrdered(s: Snapshot, after: AfterAuth)
    requires Ordered(s)
    ensures Ordered(AuthenticateInternal(s, after))
  {
    var r := AuthenticateInternal(s, after);
    forall p | 0 <= p < |r.sent| ensures OriginFits(r, p) {
      if p < |s.sent| { assert OriginFits(s, p); }
    }
  }

  lemma DisconnectOrdered(s: Snapshot)
    requires Ordered(s)
    ensures Ordered(Disconnect(s))
  {
    QuietOrdered(s, Disconnect(s));
  }

  lemma FailAllOrdered(s: Snapshot, o: Outcome)
    requires Ordered(s)
    ensures Ordered(FailAllRequests(s, o))
  {
    QuietOrdered(s, FailAllRequests(s, o));
  }

  lemma RequestOrdered(s: Snapshot, json: Message, callback: Callback)
    requires Valid(s) && Ordered(s)
    ensures Ordered(Request(s, json, callback))
  {
    var s1 := if s.state == Disconnected && s.autoAuth
              then AuthenticateInternal(s, ResumeAfterAutoAuth) else s;
    if s.state == Disconnected && s.autoAuth { AuthenticateOrdered(s, ResumeAfterAutoAuth); }
    assert Valid(s1);
    var q := QueuedRequest(json, callback);
    var s2 := s1.(queue := s1.queue + [q], history := s1.history + [q]);
    QuietOrdered(s1, s2);
    if |s2.queue| == 1 && s1.state != Authenticating {
      SendOrdered(s2, json, ToCaller(callback));
    }
  }

  lemma ResumeAfterAuthOrdered(s: Snapshot, after: AfterAuth, o: Outcome)
    requires Valid(s) && Ordered(s)
    ensures Ordered(ResumeAfterAuth(s, after, o))
  {
    match after
    case AuthCaller(callback) => QuietOrdered(s, ResumeAfterAuth(s, after, o));
    case _ =>
      if |s.queue| > 0 { SendOrdered(s, s.queue[0].json, ToCaller(s.queue[0].callback)); }
  }

  lemma AuthRepliedOrdered(s: Snapshot, k: nat, data: Option<Response>)
    requires Valid(s) && Ordered(s) && k < |s.inFlight| && s.inFlight[k].AuthCall?
    ensures Ordered(AuthReplied(s, k, data))
  {
    var after := s.inFlight[k].after;
    var s1 := s.(inFlight := Remove(s.inFlight, k));
    QuietOrdered(s, s1);
    if data.Some? && |data.value.messageResponses| > 0 {
      var m := data.value.messageResponses[0];
      var s2 := if m.status == 200
                then s1.(state := Connected, packetId := data.value.packetId + 1,
                         sessionId := SessionIdOf(m), heartbeat := true)
                else FailAllRequests(s1, MessageResult(m));
      if m.status == 200 { QuietOrdered(s1, s2); } else { FailAllOrdered(s1, MessageResult(m)); }
      assert Valid(s2);
      ResumeAfterAuthOrdered(s2, after, MessageResult(m));
    } else {
      FailAllOrdered(s1, NoResult);
      DisconnectOrdered(FailAllRequests(s1, NoResult));
      ResumeAfterAuthOrdered(Disconnect(FailAllRequests(s1, NoResult)), after, NoResult);
    }
  }

  lemma RequestRepliedOrdered(s: Snapshot, k: nat, data: Option<Response>)
    requires Valid(s) && Ordered(s) && k < |s.inFlight| && s.inFlight[k].RequestCall?
    ensures Ordered(RequestReplied(s, k, data))
  {
    var s1 := s.(inFlight := Remove(s.inFlight, k));
    QuietOrdered(s, s1);
    if IsSessionExpiry(data, s.retryCount) {
      var s2 := s1.(heartbeat := false, retryCount := s1.retryCount + 1, packetId := 0,
                    sessionId := Null);
      QuietOrdered(s1, s2);
      AuthenticateOrdered(s2, ResumeAfterReAuth);
    } else {
      var replyTo := s.inFlight[k].replyTo;
      var s2 := Deliver(s1, replyTo, ResultFor(data));
      if replyTo.ToHeartbeat? && !ReplySucceeded(ResultFor(data)) {
        DisconnectOrdered(s1);
      } else {
        QuietOrdered(s1, s2);
      }
      assert Valid(s2);
      var s3 := DropHead(s2).(retryCount := 0);
      QuietOrdered(s2, s3);
      DropHeadValid(s2);
      if |s3.queue| > 0 { SendOrdered(s3, s3.queue[0].json, ToCaller(s3.queue[0].callback)); }
    }
  }

  lemma StepOrdered(s: Snapshot, e: Event)
    requires Valid(s) && Ordered(s) && Enabled(s, e)
    ensures Ordered(Step(s, e))
  {
    match e
    case DoAuthenticate(cb) => AuthenticateOrdered(s, AuthCaller(cb));
    case DoRequest(json, cb) => RequestOrdered(s, json, cb);
    case DoDisconnect => DisconnectOrdered(s);
    case TransportReply(k, data) =>
      if s.inFlight[k].AuthCall? { AuthRepliedOrdered(s, k, data); }
      else { RequestRepliedOrdered(s, k, data); }
    case HeartbeatTimer => SendOrdered(s, HeartbeatMessage, ToHeartbeat);
  }

  lemma {:induction false} RunOrdered(s: Snapshot, events: seq<Event>)
    requires Valid(s) && Ordered(s)
    ensures Ordered(Run(s, events))
    decreases |events|
  {
    if events != [] {
      if Enabled(s, events[0]) {
        StepValid(s, events[0]);
        StepOrdered(s, events[0]);
      }
      RunOrdered(Apply(s, events[0]), events[1..]);
    }
  }

  /** After any history since `init`: each envelope is an authentication, a keepalive, or a
      caller request; each caller envelope carries the request at its position in the order
      requests were queued; and along the transport's log those positions never decrease. */
  lemma CallerRequestsSentInQueueOrder(appId: string, serverName: string, serverSecret: string,
                                       url: Option<string>, autoAuth: bool, events: seq<Event>)
    ensures var s := Run(Init(appId, serverName, serverSecret, url, autoAuth), events);
      && |s.origins| == |s.sent|
      && (forall p :: 0 <= p < |s.sent| && s.origins[p].FromQueue? ==>
            s.origins[p].position < |s.history|
            && s.sent[p].messages == [s.history[s.origins[p].position].json])
      && (forall p :: 0 <= p < |s.sent| && s.origins[p].FromAuth? ==> s.sent[p] == AuthPacket(s.config))
      && (forall p :: 0 <= p < |s.sent| && s.origins[p].FromHeartbeat? ==>
            s.sent[p].messages == [HeartbeatMessage])
      && (forall p, q :: 0 <= p < q < |s.origins| && s.origins[p].FromQueue? && s.origins[q].FromQueue?
            ==> s.origins[p].position <= s.origins[q].position)
  {
    var s0 := Init(appId, serverName, serverSecret, url, autoAuth);
    InitValid(appId, serverName, serverSecret, url, autoAuth);
    RunOrdered(s0, events);
    var s := Run(s0, events);
    forall p | 0 <= p < |s.sent|
      ensures s.origins[p].FromQueue? ==>
                (s.origins[p].position < |s.history|
                 && s.sent[p].messages == [s.history[s.origins[p].position].json])
      ensures s.origins[p].FromAuth? ==> s.sent[p] == AuthPacket(s.config)
      ensures s.origins[p].FromHeartbeat? ==> s.sent[p].messages == [HeartbeatMessage]
    {
      assert OriginFits(s, p);
    }
  }
}

=== FILE: s2s_properties.dfy ===
/** What the session dispatcher promises, proved about the transitions of `S2SSpec`. */
module S2SProperties {
  import opened Common
  import opened S2SProtocol
  import opened S2SSpec

  // ---------------------------------------------------------------------------------------
  // Invariants that hold however the context is used

  lemma InitValid(appId: string, serverName: string, serverSecret: string, url: Option<string>,
                  autoAuth: bool)
    ensures var s := Init(appId, serverName, serverSecret, url, autoAuth);
      Valid(s) && s.state == Disconnected && s.packetId == 0 && s.sessionId == Null
      && s.retryCount == 0 && s.queue == [] && !s.heartbeat && s.autoAuth == autoAuth
      && s.config.url == EffectiveUrl(url)
  {
  }

  lemma RequestValid(s: Snapshot, json: Message, callback: Callback)
    requires Valid(s)
    ensures Valid(Request(s, json, callback))
  {
    var s1 := if s.state == Disconnected && s.autoAuth
              then AuthenticateInternal(s, ResumeAfterAutoAuth) else s;
    assert Valid(s1);
  }

  lemma ResumeAfterAuthValid(s: Snapshot, after: AfterAuth, o: Outcome)
    requires Valid(s)
    ensures Valid(ResumeAfterAuth(s, after, o))
  {
  }

  lemma AuthRepliedValid(s: Snapshot, k: nat, data: Option<Response>)
    requires Valid(s) && k < |s.inFlight| && s.inFlight[k].AuthCall?
    ensures Valid(AuthReplied(s, k, data))
  {
    var after := s.inFlight[k].after;
    var s1 := s.(inFlight := Remove(s.inFlight, k));
    assert Valid(s1);
    if data.Some? && |data.value.messageResponses| > 0 {
      var m := data.value.messageResponses[0];
      var s2 := if m.status == 200
                then s1.(state := Connected, packetId := data.value.packetId + 1,
                         sessionId := SessionIdOf(m), heartbeat := true)
                else FailAllRequests(s1, MessageResult(m));
      assert Valid(s2);
      ResumeAfterAuthValid(s2, after, MessageResult(m));
    } else {
      ResumeAfterAuthValid(Disconnect(FailAllRequests(s1, NoResult)), after, NoResult);
    }
  }

  lemma DropHeadValid(s: Snapshot)
    requires Valid(s)
    ensures Valid(DropHead(s).(retryCount := 0))
  {
    if s.queue != [] {
      assert s.history == (s.retired + [s.queue[0]]) + s.queue[1..];
    }
  }

  lemma RequestRepliedValid(s: Snapshot, k: nat, data: Option<Response>)
    requires Valid(s) && k < |s.inFlight| && s.inFlight[k].RequestCall?
    ensures Valid(RequestReplied(s, k, data))
  {
    var s1 := s.(inFlight := Remove(s.inFlight, k));
    if !IsSessionExpiry(data, s.retryCount) {
      var s2 := Deliver(s1, s.inFlight[k].replyTo, ResultFor(data));
      assert Valid(s2);
      DropHeadValid(s2);
    }
  }

  lemma StepValid(s: Snapshot, e: Event)
    requires Valid(s) && Enabled(s, e)
    ensures Valid(Step(s, e))
  {
    match e
    case DoRequest(json, cb) => RequestValid(s, json, cb);
    case TransportReply(k, data) =>
      if s.inFlight[k].AuthCall? { AuthRepliedValid(s, k, data); }
      else { RequestRepliedValid(s, k, data); }
    case _ =>
  }

  /** Every run from a valid context ends in a valid context. */
  lemma {:induction false} RunValid(s: Snapshot, events: seq<Event>)
    requires Valid(s)
    ensures Valid(Run(s, events))
    decreases |events|
  {
    if events != [] {
      if Enabled(s, events[0]) { StepValid(s, events[0]); }
      RunValid(Apply(s, events[0]), events[1..]);
    }
  }

  /** The retry counter never exceeds three, whatever happens to a context after `init`. */
  lemma RetryCountBounded(appId: string, serverName: string, serverSecret: string,
                          url: Option<string>, autoAuth: bool, events: seq<Event>)
    ensures Run(Init(appId, serverName, serverSecret, url, autoAuth), events).retryCount <= MAX_RETRIES
  {
    RunValid(Init(appId, serverName, serverSecret, url, autoAuth), events);
  }

  /** Requests leave the queue in the order they entered it: what has left, followed by what is
      still queued, is exactly what was ever queued. */
  lemma QueueIsFifo(appId: string, serverName: string, serverSecret: string,
                    url: Option<string>, autoAuth: bool, events: seq<Event>)
    ensures var s := Run(Init(appId, serverName, serverSecret, url, autoAuth), events);
      s.history == s.retired + s.queue
  {
    RunValid(Init(appId, serverName, serverSecret, url, autoAuth), events);
  }

  // ---------------------------------------------------------------------------------------
  // One request in flight, and it is the queue head

  /** A heartbeat keepalive is in flight. */
  predicate HeartbeatPending(s: Snapshot)
  {
    exists i :: 0 <= i < |s.inFlight| && s.inFlight[i].RequestCall? && s.inFlight[i].replyTo.ToHeartbeat?
  }

  /** A call in flight agrees with the context: an authentication runs only while AUTHENTICATING,
      a caller's request in flight is the queue head, and a keepalive only runs on an empty queue. */
  predicate CallFits(s: Snapshot, c: Call)
  {
    match c
    case AuthCall(_) => s.state == Authenticating
    case RequestCall(json, ToCaller(cb)) => s.queue != [] && s.queue[0] == QueuedRequest(json, cb)
    case RequestCall(_, ToHeartbeat) => s.queue == []
  }

  /** The dispatcher's ordering discipline: at most one transport call in flight, and it fits. */
  predicate Orderly(s: Snapshot)
  {
    && Valid(s)
    && |s.inFlight| <= 1
    && (|s.inFlight| == 1 ==> CallFits(s, s.inFlight[0]))
    && (s.autoAuth && s.state == Disconnected ==> s.inFlight == [])
  }

  /** The use under which the dispatcher keeps its discipline: the owner authenticates and
      disconnects only when nothing is in flight, does not request while a keepalive is in
      flight, and a heartbeat tick comes only while the queue is empty and nothing is in flight. */
  predicate Polite(s: Snapshot, e: Event)
  {
    match e
    case DoAuthenticate(_) => s.inFlight == []
    case DoDisconnect => s.inFlight == []
    case HeartbeatTimer => s.inFlight == [] && s.queue == []
    case DoRequest(_, _) => !HeartbeatPending(s)
    case TransportReply(_, _) => true
  }

  predicate PoliteRun(s: Snapshot, events: seq<Event>)
    decreases |events|
  {
    events == [] || (Polite(s, events[0]) && PoliteRun(Apply(s, events[0]), events[1..]))
  }

  lemma InitOrderly(appId: string, serverName: string, serverSecret: string, url: Option<string>,
                    autoAuth: bool)
    ensures Orderly(Init(appId, serverName, serverSecret, url, autoAuth))
  {
  }

  lemma RequestOrderly(s: Snapshot, json: Message, callback: Callback)
    requires Orderly(s) && !HeartbeatPending(s)
    ensures Orderly(Request(s, json, callback))
  {
    RequestValid(s, json, callback);
    var s1 := if s.state == Disconnected && s.autoAuth
              then AuthenticateInternal(s, ResumeAfterAutoAuth) else s;
    assert Orderly(s1) && !HeartbeatPending(s1);
    var r := QueueRequest(s1, json, callback);
    if |s1.queue| == 0 && s1.state != Authenticating {
      assert s1.inFlight == [];
    } else if |r.inFlight| == 1 {
      assert CallFits(s1, s1.inFlight[0]);
    }
  }

  lemma ResumeAfterAuthOrderly(s: Snapshot, after: AfterAuth, o: Outcome)
    requires Valid(s) && s.inFlight == []
    requires s.state == Disconnected ==> o == NoResult && s.queue == []
    requires s.state == Authenticating ==> s.queue == []
    ensures Orderly(ResumeAfterAuth(s, after, o))
  {
    ResumeAfterAuthValid(s, after, o);
  }

  lemma AuthRepliedOrderly(s: Snapshot, data: Option<Response>)
    requires Orderly(s) && |s.inFlight| == 1 && s.inFlight[0].AuthCall?
    ensures Orderly(AuthReplied(s, 0, data))
  {
    assert CallFits(s, s.inFlight[0]);
    var after := s.inFlight[0].after;
    var s1 := s.(inFlight := Remove(s.inFlight, 0));
    assert Valid(s1) && s1.inFlight == [];
    if data.Some? && |data.value.messageResponses| > 0 {
      var m := data.value.messageResponses[0];
      var s2 := if m.status == 200
                then s1.(state := Connected, packetId := data.value.packetId + 1,
                         sessionId := SessionIdOf(m), heartbeat := true)
                else FailAllRequests(s1, MessageResult(m));
      assert Valid(s2);
      ResumeAfterAuthOrderly(s2, after, MessageResult(m));
    } else {
      ResumeAfterAuthOrderly(Disconnect(FailAllRequests(s1, NoResult)), after, NoResult);
    }
  }

  lemma RequestRepliedOrderly(s: Snapshot, data: Option<Response>)
    requires Orderly(s) && |s.inFlight| == 1 && s.inFlight[0].RequestCall?
    ensures Orderly(RequestReplied(s, 0, data))
  {
    RequestRepliedValid(s, 0, data);
    assert CallFits(s, s.inFlight[0]);
    var s1 := s.(inFlight := Remove(s.inFlight, 0));
    assert s1.inFlight == [];
    if !IsSessionExpiry(data, s.retryCount) {
      var s2 := Deliver(s1, s.inFlight[0].replyTo, ResultFor(data));
      assert s2.inFlight == [];
      assert s2.autoAuth && s2.state == Disconnected ==> s2.queue == [];
    }
  }

  lemma StepOrderly(s: Snapshot, e: Event)
    requires Orderly(s) && Enabled(s, e) && Polite(s, e)
    ensures Orderly(Step(s, e))
  {
    match e
    case DoRequest(json, cb) => RequestOrderly(s, json, cb);
    case TransportReply(k, data) =>
      if s.inFlight[k].AuthCall? { AuthRepliedOrderly(s, data); }
      else { RequestRepliedOrderly(s, data); }
    case _ =>
  }

  /** Under the discipline above, every run keeps at most one transport call in flight, and the
      only caller request ever in flight is the head of the queue. */
  lemma {:induction false} PoliteRunsStayOrderly(s: Snapshot, events: seq<Event>)
    requires Orderly(s) && PoliteRun(s, events)
    ensures Orderly(Run(s, events))
    decreases |events|
  {
    if events != [] {
      if Enabled(s, events[0]) { StepOrderly(s, events[0]); }
      PoliteRunsStayOrderly(Apply(s, events[0]), events[1..]);
    }
  }

  // ---------------------------------------------------------------------------------------
  // What each operation and completion does

  /** A request on a DISCONNECTED auto-authenticating context starts exactly one authentication
      and queues the request without sending it. */
  lemma AutoAuthRequestAuthenticatesFirst(s: Snapshot, json: Message, callback: Callback)
    requires s.state == Disconnected && s.autoAuth
    ensures var r := Request(s, json, callback);
      && r.sent == s.sent + [AuthPacket(s.config)]
      && r.state == Authenticating
      && r.queue == s.queue + [QueuedRequest(json, callback)]
      && r.inFlight == s.inFlight + [AuthCall(ResumeAfterAutoAuth)]
  {
  }

  /** The callback an authentication's continuation gives `o` to, if it is a caller's. */
  function CallerNotice(after: AfterAuth, o: Outcome): seq<Delivery>
  {
    if after.AuthCaller? && after.callback.User? then [Delivery(after.callback.id, o)] else []
  }

  /** A first message response with status 200 connects: session id from the reply, packet id the
      echoed one plus one, heartbeat running; an auto-authentication or re-authentication then
      sends the queue head with that packet id and session id. */
  lemma AuthSucceeded(s: Snapshot, k: nat, data: Option<Response>)
    requires k < |s.inFlight| && s.inFlight[k].AuthCall?
    requires data.Some? && |data.value.messageResponses| > 0
    requires data.value.messageResponses[0].status == 200
    ensures var r := AuthReplied(s, k, data);
      var m := data.value.messageResponses[0];
      var resumes := !s.inFlight[k].after.AuthCaller? && s.queue != [];
      && r.state == Connected && r.sessionId == SessionIdOf(m) && r.heartbeat
      && r.queue == s.queue && r.retryCount == s.retryCount
      && r.delivered == s.delivered + CallerNotice(s.inFlight[k].after, MessageResult(m))
      && (resumes ==>
            && r.sent == s.sent + [Packet(data.value.packetId + 1, Some(SessionIdOf(m)), [s.queue[0].json])]
            && r.inFlight == Remove(s.inFlight, k) + [RequestCall(s.queue[0].json, ToCaller(s.queue[0].callback))]
            && r.packetId == data.value.packetId + 2)
      && (!resumes ==>
            r.sent == s.sent && r.inFlight == Remove(s.inFlight, k) && r.packetId == data.value.packetId + 1)
  {
  }

  /** A first message response with another status fails every queued request with it and leaves
      the state as it was (AUTHENTICATING); the caller gets the message. */
  lemma AuthRejected(s: Snapshot, k: nat, data: Option<Response>)
    requires k < |s.inFlight| && s.inFlight[k].AuthCall?
    requires data.Some? && |data.value.messageResponses| > 0
    requires data.value.messageResponses[0].status != 200
    ensures var r := AuthReplied(s, k, data);
      var o := MessageResult(data.value.messageResponses[0]);
      && r.state == s.state && r.sessionId == s.sessionId && r.packetId == s.packetId
      && r.queue == [] && r.sent == s.sent && r.inFlight == Remove(s.inFlight, k)
      && r.delivered == s.delivered + Notify(s.queue, o) + CallerNotice(s.inFlight[k].after, o)
  {
  }

  /** A reply with no message response (or none at all) fails the queue, disconnects, and gives
      the caller `null`. */
  lemma AuthUnanswered(s: Snapshot, k: nat, data: Option<Response>)
    requires k < |s.inFlight| && s.inFlight[k].AuthCall?
    requires !(data.Some? && |data.value.messageResponses| > 0)
    ensures var r := AuthReplied(s, k, data);
      && r.state == Disconnected && !r.heartbeat && r.sessionId == Null && r.packetId == 0
      && r.queue == [] && r.sent == s.sent && r.inFlight == Remove(s.inFlight, k)
      && r.delivered == s.delivered + Notify(s.queue, NoResult) + CallerNotice(s.inFlight[k].after, NoResult)
  {
  }

  /** A session-expired reply with retries left: heartbeat stopped, retry count up by one, packet
      id and session id reset, a re-authentication sent; the queue and the callbacks untouched. */
  lemma SessionExpiryReAuthenticates(s: Snapshot, k: nat, data: Option<Response>)
    requires k < |s.inFlight| && s.inFlight[k].RequestCall? && IsSessionExpiry(data, s.retryCount)
    ensures var r := RequestReplied(s, k, data);
      && r.queue == s.queue && r.delivered == s.delivered
      && r.retryCount == s.retryCount + 1 <= MAX_RETRIES
      && r.packetId == 0 && r.sessionId == Null && !r.heartbeat && r.state == Authenticating
      && r.sent == s.sent + [AuthPacket(s.config)]
      && r.inFlight == Remove(s.inFlight, k) + [AuthCall(ResumeAfterReAuth)]
  {
  }

  /** Any other reply to a caller's request: its callback gets the first message response or the
      raw reply, the head leaves the queue, the retry count is reset, and the new head (if any) is
      sent next. */
  lemma CompletionAdvancesQueue(s: Snapshot, k: nat, data: Option<Response>)
    requires k < |s.inFlight| && s.inFlight[k].RequestCall? && s.inFlight[k].replyTo.ToCaller?
    requires !IsSessionExpiry(data, s.retryCount)
    ensures var r := RequestReplied(s, k, data);
      var cb := s.inFlight[k].replyTo.callback;
      && r.delivered == s.delivered + (if cb.User? then [Delivery(cb.id, ResultFor(data))] else [])
      && r.retryCount == 0
      && r.queue == (if s.queue == [] then [] else s.queue[1..])
      && r.state == s.state && r.sessionId == s.sessionId
      && (r.queue != [] ==>
            && r.sent == s.sent + [Packet(s.packetId, Some(s.sessionId), [r.queue[0].json])]
            && r.inFlight == Remove(s.inFlight, k) + [RequestCall(r.queue[0].json, ToCaller(r.queue[0].callback))])
      && (r.queue == [] ==> r.sent == s.sent && r.inFlight == Remove(s.inFlight, k))
  {
  }

  /** A fourth consecutive session-expired reply is no longer retried: the callback receives it. */
  lemma RetriesExhausted(s: Snapshot, k: nat, data: Option<Response>, id: nat)
    requires k < |s.inFlight| && s.inFlight[k].RequestCall? && s.inFlight[k].replyTo == ToCaller(User(id))
    requires s.retryCount == MAX_RETRIES
    requires data.Some? && data.value.status != 200 && data.value.reasonCode == SERVER_SESSION_EXPIRED
    ensures var r := RequestReplied(s, k, data);
      r.delivered == s.delivered + [Delivery(id, ResultFor(data))] && r.retryCount == 0
  {
    CompletionAdvancesQueue(s, k, data);
  }

  /** A keepalive reply that is absent or not 200 tears the session down. */
  lemma HeartbeatFailureDisconnects(s: Snapshot, k: nat, data: Option<Response>)
    requires k < |s.inFlight| && s.inFlight[k].RequestCall? && s.inFlight[k].replyTo.ToHeartbeat?
    requires !IsSessionExpiry(data, s.retryCount) && !ReplySucceeded(ResultFor(data))
    ensures var r := RequestReplied(s, k, data);
      && r.state == Disconnected && !r.heartbeat && r.queue == [] && r.sessionId == Null
      && r.packetId == 0 && r.retryCount == 0 && r.sent == s.sent && r.delivered == s.delivered
  {
  }

  /** Disconnecting twice is disconnecting once. */
  lemma DisconnectIdempotent(s: Snapshot)
    ensures Disconnect(Disconnect(s)) == Disconnect(s)
  {
    assert s.retired + s.queue + [] == s.retired + s.queue;
  }

  // ---------------------------------------------------------------------------------------
  // Failing the queue

  /** The notices of a queue split at any point are the notices of the two parts. */
  lemma {:induction false} NotifySplit(queue: seq<QueuedRequest>, i: nat, o: Outcome)
    requires i <= |queue|
    ensures Notify(queue, o) == Notify(queue[..i], o) + Notify(queue[i..], o)
    decreases |queue|
  {
    if i < |queue| {
      var n := |queue| - 1;
      NotifySplit(queue[..n], i, o);
      assert queue[..n][..i] == queue[..i];
      assert queue[i..][..|queue[i..]| - 1] == queue[..n][i..];
      assert queue[i..][|queue[i..]| - 1] == queue[n];
    } else {
      assert queue[..i] == queue;
    }
  }

  /** Failing the queue gives every queued request's callback the failure, in queue order, and
      nothing else. */
  lemma FailAllReachesEveryCallback(s: Snapshot, o: Outcome, i: nat)
    requires i < |s.queue| && s.queue[i].callback.User?
    ensures var r := FailAllRequests(s, o);
      r.delivered == s.delivered + Notify(s.queue[..i], o) + [Delivery(s.queue[i].callback.id, o)]
                     + Notify(s.queue[i + 1..], o)
  {
    NotifySplit(s.queue, i, o);
    NotifySplit(s.queue[i..], 1, o);
    assert s.queue[i..][..1] == [s.queue[i]];
    assert s.queue[i..][1..] == s.queue[i + 1..];
  }
}

=== FILE: s2s_protocol.dfy ===
/** Wire-level vocabulary of the server-to-server (S2S) session: constants, request envelopes,
    decoded responses, and the continuations that the transport holds for each call in flight. */
module S2SProtocol {
  import opened Common

  /** Reason code of a top-level response saying the session has expired. */
  const SERVER_SESSION_EXPIRED: int := 40365
  /** Period of the session heartbeat: 30 minutes. */
  const HEARTBEAT_INTERVAL_MS: int := 60 * 30 * 1000
  /** Consecutive automatic re-authentications allowed for one request. */
  const MAX_RETRIES: nat := 3
  /** Host used when the caller gives no (or an empty) url. */
  const DEFAULT_URL: string := "api.braincloudservers.com"

  datatype State = Disconnected | Authenticating | Connected

  /** Fixed configuration captured by `init`. */
  datatype Config = Config(url: string, appId: string, serverName: string, serverSecret: string)

  /** One message of a request envelope: `{service, operation, data}`. */
  datatype Message = Message(service: string, operation: string, data: Fields)

  /** A request envelope handed to the transport. `sessionId` is `None` when the envelope has
      no `sessionId` key at all (the authentication envelope). */
  datatype Packet = Packet(packetId: int, sessionId: Option<Json>, messages: seq<Message>)

  /** One element of a response's `messageResponses`. */
  datatype MessageResponse = MessageResponse(status: int, reasonCode: int, data: Fields)

  /** A decoded top-level response; an absent `messageResponses` is the empty sequence. */
  datatype Response = Response(status: int, reasonCode: int, packetId: int,
                               messageResponses: seq<MessageResponse>)

  /** What a completion callback receives: `null`, the first message response, or the raw
      response when it carries no message response. */
  datatype Outcome = NoResult | MessageResult(message: MessageResponse) | RawResult(response: Response)

  /** A caller-supplied callback, identified by a number; `NoCallback` is a `null` callback. */
  datatype Callback = NoCallback | User(id: nat)

  /** An entry of the request queue. */
  datatype QueuedRequest = QueuedRequest(json: Message, callback: Callback)

  /** Who the completion of a sent request reports to: the queued request's own callback, or the
      heartbeat's liveness check. */
  datatype ReplyTo = ToCaller(callback: Callback) | ToHeartbeat

  /** The continuation of an authentication call: the caller of `authenticate`, the closure of
      the exported `request` that auto-authenticated, or the closure of `reAuth`. */
  datatype AfterAuth = AuthCaller(callback: Callback) | ResumeAfterAutoAuth | ResumeAfterReAuth

  /** A transport call in flight, with the closure that its completion runs. */
  datatype Call = AuthCall(after: AfterAuth) | RequestCall(json: Message, replyTo: ReplyTo)

  /** A callback invocation recorded by the model: callback `id` received `result`. */
  datatype Delivery = Delivery(id: nat, result: Outcome)

  /** The default-url rule of `init`: a missing or empty url falls back to the default host. */
  function EffectiveUrl(url: Option<string>): (r: string)
    ensures url.Some? && url.value != "" ==> r == url.value
    ensures url == None || url == Some("") ==> r == DEFAULT_URL
    ensures r != ""
  {
    if url.None? || url.value == "" then DEFAULT_URL else url.value
  }

  /** The authentication envelope: packet id 0, no session id, one AUTHENTICATE message. */
  function AuthPacket(config: Config): Packet
  {
    Packet(0, None, [Message("authenticationV2", "AUTHENTICATE",
                             map["appId" := Str(config.appId),
                                 "serverName" := Str(config.serverName),
                                 "serverSecret" := Str(config.serverSecret)])])
  }

  /** The keepalive message sent by the session heartbeat (it has no data). */
  const HeartbeatMessage: Message := Message("heartbeat", "HEARTBEAT", map[])

  /** What a request's callback receives for a transport reply (`None` is a transport or parse
      failure): the first message response if there is one, else the raw response. */
  function ResultFor(data: Option<Response>): (o: Outcome)
    ensures o.NoResult? <==> data.None?
    ensures o.MessageResult? <==> data.Some? && |data.value.messageResponses| > 0
    ensures o.MessageResult? ==> o.message == data.value.messageResponses[0]
    ensures o.RawResult? ==> o.response == data.value && data.value.messageResponses == []
  {
    if data.None? then NoResult
    else if |data.value.messageResponses| > 0 then MessageResult(data.value.messageResponses[0])
    else RawResult(data.value)
  }

  /** The expiry test of a request's completion: a top-level status other than 200 with the
      session-expired reason code, while fewer than three retries have been made. */
  predicate IsSessionExpiry(data: Option<Response>, retryCount: nat)
  {
    data.Some? && data.value.status != 200 && data.value.reasonCode == SERVER_SESSION_EXPIRED
    && retryCount < MAX_RETRIES
  }

  /** The heartbeat's test `data && data.status === 200` on what its callback receives. */
  predicate ReplySucceeded(o: Outcome)
  {
    match o
    case NoResult => false
    case MessageResult(m) => m.status == 200
    case RawResult(r) => r.status == 200
  }

  /** The session id carried in an authentication reply's `data.sessionId`. */
  function SessionIdOf(m: MessageResponse): Json
  {
    Field(m.data, "sessionId")
  }
}

=== FILE: s2s_scenarios.dfy ===
/** End-to-end runs of the session dispatcher: auto-authentication on the first request, and three
    requests made back to back before any reply. */
module S2SScenarios {
  import opened Common
  import opened S2SProtocol
  import opened S2SSpec
  import opened S2SProperties

  /** On a fresh auto-authenticating context, one request produces exactly one authentication
      packet and then, once it succeeds, exactly one request packet carrying the new session id. */
  lemma AutoAuthScenario(appId: string, serverName: string, serverSecret: string,
                         url: Option<string>, json: Message, callback: Callback,
                         auth: Option<Response>)
    requires auth.Some? && |auth.value.messageResponses| > 0
    requires auth.value.messageResponses[0].status == 200
    ensures var s := Init(appId, serverName, serverSecret, url, true);
      var t := Request(s, json, callback);
      var sid := SessionIdOf(auth.value.messageResponses[0]);
      && t.sent == [AuthPacket(s.config)] && |t.inFlight| == 1
      && var r := AuthReplied(t, 0, auth);
      && r.sent == [AuthPacket(s.config), Packet(auth.value.packetId + 1, Some(sid), [json])]
      && r.state == Connected && r.sessionId == sid
      && r.inFlight == [RequestCall(json, ToCaller(callback))]
  {
    var s := Init(appId, serverName, serverSecret, url, true);
    AutoAuthRequestAuthenticatesFirst(s, json, callback);
    AuthSucceeded(Request(s, json, callback), 0, auth);
  }

  /** One reply to the single caller request in flight, the head of the queue: its callback gets
      the result and the next queued request, if any, is sent with the next packet id. */
  lemma ReplyToHead(s: Snapshot, q: QueuedRequest, rest: seq<QueuedRequest>, id: nat,
                      data: Option<Response>)
    requires q.callback == User(id) && s.queue == [q] + rest
    requires s.inFlight == [RequestCall(q.json, ToCaller(q.callback))]
    requires !IsSessionExpiry(data, s.retryCount)
    ensures var r := RequestReplied(s, 0, data);
      && r.queue == rest && r.retryCount == 0 && r.state == s.state && r.sessionId == s.sessionId
      && r.delivered == s.delivered + [Delivery(id, ResultFor(data))]
      && (rest != [] ==>
            && r.sent == s.sent + [Packet(s.packetId, Some(s.sessionId), [rest[0].json])]
            && r.inFlight == [RequestCall(rest[0].json, ToCaller(rest[0].callback))]
            && r.packetId == s.packetId + 1)
      && (rest == [] ==> r.sent == s.sent && r.inFlight == [] && r.packetId == s.packetId)
  {
    CompletionAdvancesQueue(s, 0, data);
    assert s.queue[1..] == rest;
  }

  /** Three requests made back to back on a connected, idle context: only the first is sent at
      once, and the other two wait in the queue behind it. */
  lemma BackToBackRequests(s: Snapshot, a: QueuedRequest, b: QueuedRequest, c: QueuedRequest)
    requires s.state == Connected && s.queue == [] && s.inFlight == []
    ensures var t := Request(Request(Request(s, a.json, a.callback), b.json, b.callback), c.json, c.callback);
      && t.sent == s.sent + [Packet(s.packetId, Some(s.sessionId), [a.json])]
      && t.inFlight == [RequestCall(a.json, ToCaller(a.callback))]
      && t.queue == [a, b, c] && t.packetId == s.packetId + 1
      && t.state == s.state && t.sessionId == s.sessionId && t.retryCount == s.retryCount
      && t.delivered == s.delivered
  {
  }

  /** ... and each reply hands its result to its own callback and sends the next request, so the
      transport sees the three packets in order, numbered consecutively, one at a time. */
  lemma BackToBackScenario(s: Snapshot, a: QueuedRequest, b: QueuedRequest, c: QueuedRequest,
                           ia: nat, ib: nat, ic: nat,
                           da: Option<Response>, db: Option<Response>, dc: Option<Response>)
    requires s.state == Connected && s.queue == [] && s.inFlight == []
    requires a.callback == User(ia) && b.callback == User(ib) && c.callback == User(ic)
    requires !IsSessionExpiry(da, s.retryCount) && !IsSessionExpiry(db, 0) && !IsSessionExpiry(dc, 0)
    ensures var t := Request(Request(Request(s, a.json, a.callback), b.json, b.callback), c.json, c.callback);
      var t1 := RequestReplied(t, 0, da);
      var t2 := RequestReplied(t1, 0, db);
      var t3 := RequestReplied(t2, 0, dc);
      && t1.inFlight == [RequestCall(b.json, ToCaller(b.callback))]
      && t2.inFlight == [RequestCall(c.json, ToCaller(c.callback))]
      && t3.inFlight == [] && t3.queue == []
      && t3.sent == s.sent + [Packet(s.packetId, Some(s.sessionId), [a.json]),
                              Packet(s.packetId + 1, Some(s.sessionId), [b.json]),
                              Packet(s.packetId + 2, Some(s.sessionId), [c.json])]
      && t3.delivered == s.delivered + [Delivery(ia, ResultFor(da)), Delivery(ib, ResultFor(db)),
                                        Delivery(ic, ResultFor(dc))]
  {
    BackToBackRequests(s, a, b, c);
    var t := Request(Request(Request(s, a.json, a.callback), b.json, b.callback), c.json, c.callback);
    ReplyToHead(t, a, [b, c], ia, da);
    var t1 := RequestReplied(t, 0, da);
    ReplyToHead(t1, b, [c], ib, db);
    var t2 := RequestReplied(t1, 0, db);
    ReplyToHead(t2, c, [], ic, dc);
  }
}

=== FILE: s2s_spec.dfy ===
/** The session context as a value, and each of its operations and completion handlers as a
    transition on that value. The `Context` class is proved to follow these transitions; the
    lemmas here state what the dispatcher promises about them. */
module S2SSpec {
  import opened Common
  import opened S2SProtocol

  /** Why an envelope was sent: an authentication, a keepalive, or the request at `position` in
      the order requests were queued. */
  datatype Origin = FromAuth | FromHeartbeat | FromQueue(position: nat)

  /** Everything the session context holds, plus the model's output logs: `sent` (envelopes
      handed to the transport) with the `origins` of each, `delivered` (caller callbacks invoked),
      `history` (every request ever queued, in order) and `retired` (every request that has left
      the queue, in order). */
  datatype Snapshot = Snapshot(
    config: Config,
    state: State,
    packetId: int,
    sessionId: Json,
    heartbeat: bool,
    autoAuth: bool,
    retryCount: nat,
    queue: seq<QueuedRequest>,
    inFlight: seq<Call>,
    sent: seq<Packet>,
    origins: seq<Origin>,
    delivered: seq<Delivery>,
    history: seq<QueuedRequest>,
    retired: seq<QueuedRequest>)

  /** The context returned by `init`. */
  function Init(appId: string, serverName: string, serverSecret: string, url: Option<string>,
                autoAuth: bool): Snapshot
  {
    Snapshot(Config(EffectiveUrl(url), appId, serverName, serverSecret), Disconnected, 0, Null,
             false, autoAuth, 0, [], [], [], [], [], [], [])
  }

  /** The sequence without its k-th element. */
  function Remove<T>(xs: seq<T>, k: nat): (r: seq<T>)
    requires k < |xs|
    ensures |r| == |xs| - 1
  {
    xs[..k] + xs[k + 1..]
  }

  /** The origin a send records: a caller's request is always sent as the queue head, which is
      the request at position `|s.retired|` of the queue order. */
  function SendOrigin(s: Snapshot, replyTo: ReplyTo): Origin
  {
    if replyTo.ToCaller? then FromQueue(|s.retired|) else FromHeartbeat
  }

  /** Internal `request`: the envelope carries the current packet id and session id and exactly
      the one message; the packet id advances by one. */
  function Send(s: Snapshot, json: Message, replyTo: ReplyTo): (r: Snapshot)
    ensures r.sent == s.sent + [Packet(s.packetId, Some(s.sessionId), [json])]
    ensures r.origins == s.origins + [SendOrigin(s, replyTo)]
    ensures r.packetId == s.packetId + 1
    ensures r.inFlight == s.inFlight + [RequestCall(json, replyTo)]
    ensures r.(sent := s.sent, origins := s.origins, packetId := s.packetId, inFlight := s.inFlight) == s
  {
    s.(sent := s.sent + [Packet(s.packetId, Some(s.sessionId), [json])],
       origins := s.origins + [SendOrigin(s, replyTo)],
       packetId := s.packetId + 1,
       inFlight := s.inFlight + [RequestCall(json, replyTo)])
  }

  /** `authenticateInternal`: state becomes AUTHENTICATING and the authentication envelope (packet
      id 0) is sent; the context's own packet id is left as it was. */
  function AuthenticateInternal(s: Snapshot, after: AfterAuth): (r: Snapshot)
    ensures r.state == Authenticating
    ensures r.sent == s.sent + [AuthPacket(s.config)] && r.sent[|s.sent|].packetId == 0
    ensures r.inFlight == s.inFlight + [AuthCall(after)] && r.origins == s.origins + [FromAuth]
    ensures r.(state := s.state, sent := s.sent, origins := s.origins, inFlight := s.inFlight) == s
  {
    s.(state := Authenticating, sent := s.sent + [AuthPacket(s.config)],
       origins := s.origins + [FromAuth], inFlight := s.inFlight + [AuthCall(after)])
  }

  /** `queueRequest`: append at the tail; send at once only when the request is now alone in the
      queue and no authentication is in progress. */
  function QueueRequest(s: Snapshot, json: Message, callback: Callback): (r: Snapshot)
    ensures r.queue == s.queue + [QueuedRequest(json, callback)]
    ensures r.history == s.history + [QueuedRequest(json, callback)]
    ensures |s.queue| == 0 && s.state != Authenticating ==>
              r.sent == s.sent + [Packet(s.packetId, Some(s.sessionId), [json])]
              && r.inFlight == s.inFlight + [RequestCall(json, ToCaller(callback))]
              && r.packetId == s.packetId + 1
    ensures !(|s.queue| == 0 && s.state != Authenticating) ==>
              r.sent == s.sent && r.inFlight == s.inFlight && r.packetId == s.packetId
    ensures r.state == s.state && r.delivered == s.delivered && r.retryCount == s.retryCount
  {
    var q := QueuedRequest(json, callback);
    var s1 := s.(queue := s.queue + [q], history := s.history + [q]);
    if |s1.queue| == 1 && s.state != Authenticating then Send(s1, json, ToCaller(callback)) else s1
  }

  /** Exported `request`: a DISCONNECTED context with auto-authentication first starts one
      authentication, then the request is queued. */
  function Request(s: Snapshot, json: Message, callback: Callback): (r: Snapshot)
    ensures r.queue == s.queue + [QueuedRequest(json, callback)]
    ensures r.history == s.history + [QueuedRequest(json, callback)]
    ensures r.delivered == s.delivered && r.retryCount == s.retryCount
    ensures s.state == Disconnected && s.autoAuth ==>
              r.state == Authenticating && r.sent == s.sent + [AuthPacket(s.config)]
    ensures !(s.state == Disconnected && s.autoAuth) ==> r.state == s.state
  {
    var s1 := if s.state == Disconnected && s.autoAuth
              then AuthenticateInternal(s, ResumeAfterAutoAuth) else s;
    QueueRequest(s1, json, callback)
  }

  /** Exported `authenticate`. */
  function Authenticate(s: Snapshot, callback: Callback): Snapshot
  {
    AuthenticateInternal(s, AuthCaller(callback))
  }

  /** Exported `disconnect`: heartbeat stopped, every session field reset, queue emptied
      (the dropped requests get no callback). */
  function Disconnect(s: Snapshot): (r: Snapshot)
    ensures r.state == Disconnected && !r.heartbeat && r.retryCount == 0 && r.packetId == 0
    ensures r.sessionId == Null && r.queue == [] && r.retired == s.retired + s.queue
    ensures r.sent == s.sent && r.delivered == s.delivered && r.inFlight == s.inFlight
  {
    s.(heartbeat := false, state := Disconnected, retryCount := 0, packetId := 0,
       sessionId := Null, queue := [], retired := s.retired + s.queue)
  }

  /** The invocation of one queued request's callback with `o` (none for a null callback). */
  function Notice(q: QueuedRequest, o: Outcome): seq<Delivery>
  {
    if q.callback.User? then [Delivery(q.callback.id, o)] else []
  }

  /** The callbacks of a queue, invoked in queue order with `o`. */
  function Notify(queue: seq<QueuedRequest>, o: Outcome): seq<Delivery>
  {
    if queue == [] then [] else Notify(queue[..|queue| - 1], o) + Notice(queue[|queue| - 1], o)
  }

  /** `failAllRequests` with its evident intent: snapshot the queue, clear it, then give every
      snapshot entry's callback the failure. (See `FailAllRequestsAsWritten`.) */
  function FailAllRequests(s: Snapshot, o: Outcome): (r: Snapshot)
    ensures r.queue == [] && r.retired == s.retired + s.queue
    ensures r.delivered == s.delivered + Notify(s.queue, o)
  {
    s.(queue := [], retired := s.retired + s.queue, delivered := s.delivered + Notify(s.queue, o))
  }

  /** `failAllRequests` as written: the queue is cleared and then the (now empty) queue is
      iterated, so no callback runs. */
  function FailAllRequestsAsWritten(s: Snapshot, o: Outcome): (r: Snapshot)
    ensures r.queue == [] && r.retired == s.retired + s.queue
    ensures r.delivered == s.delivered && r.sent == s.sent
  {
    s.(queue := [], retired := s.retired + s.queue)
  }

  /** `callCallback` for a caller callback. */
  function Invoke(s: Snapshot, callback: Callback, o: Outcome): Snapshot
  {
    if callback.User? then s.(delivered := s.delivered + [Delivery(callback.id, o)]) else s
  }

  /** Runs a request completion's callback: the caller's, or the heartbeat check, which
      disconnects unless the reply is present with status 200. */
  function Deliver(s: Snapshot, replyTo: ReplyTo, o: Outcome): Snapshot
  {
    match replyTo
    case ToCaller(callback) => Invoke(s, callback, o)
    case ToHeartbeat => if ReplySucceeded(o) then s else Disconnect(s)
  }

  /** The `reAuth` continuation with its evident intent: on a non-null result, re-send the
      queue head unchanged. (See `ReAuthContinuationAsWritten`.) */
  function ReAuthContinuation(s: Snapshot, o: Outcome): (r: Snapshot)
    ensures r.queue == s.queue && r.delivered == s.delivered && r.state == s.state
    ensures o != NoResult && s.queue != [] ==>
              r.sent == s.sent + [Packet(s.packetId, Some(s.sessionId), [s.queue[0].json])]
              && r.inFlight == s.inFlight + [RequestCall(s.queue[0].json, ToCaller(s.queue[0].callback))]
    ensures o == NoResult || s.queue == [] ==> r.sent == s.sent && r.inFlight == s.inFlight
  {
    if o != NoResult && |s.queue| > 0
    then Send(s, s.queue[0].json, ToCaller(s.queue[0].callback))
    else s
  }

  /** The `reAuth` continuation as written: its first statement reads variables that are not in
      scope, the ReferenceError is swallowed by `callCallback`, and nothing happens. */
  function ReAuthContinuationAsWritten(s: Snapshot, o: Outcome): (r: Snapshot)
    ensures r.sent == s.sent && r.inFlight == s.inFlight
    ensures r.queue == s.queue && r.delivered == s.delivered
  {
    s
  }

  /** Runs the continuation of an authentication call. */
  function ResumeAfterAuth(s: Snapshot, after: AfterAuth, o: Outcome): (r: Snapshot)
    ensures r.queue == s.queue && r.history == s.history && r.retired == s.retired
    ensures r.state == s.state && r.sessionId == s.sessionId
    ensures after.AuthCaller? ==>
              r.sent == s.sent
              && r.delivered == s.delivered + (if after.callback.User? then [Delivery(after.callback.id, o)] else [])
    ensures !after.AuthCaller? ==> r.delivered == s.delivered
    ensures r.sent != s.sent ==>
              s.queue != [] && r.sent == s.sent + [Packet(s.packetId, Some(s.sessionId), [s.queue[0].json])]
  {
    match after
    case AuthCaller(callback) => Invoke(s, callback, o)
    case ResumeAfterAutoAuth =>
      if s.state == Connected && o.MessageResult? && o.message.status == 200 && |s.queue| > 0
      then Send(s, s.queue[0].json, ToCaller(s.queue[0].callback))
      else s
    case ResumeAfterReAuth => ReAuthContinuation(s, o)
  }

  /** The completion of authentication call `k` with reply `data` (`None`: transport or parse
      failure). */
  function AuthReplied(s: Snapshot, k: nat, data: Option<Response>): (r: Snapshot)
    requires k < |s.inFlight| && s.inFlight[k].AuthCall?
    ensures r.history == s.history && |s.retired| <= |r.retired|
    ensures data.Some? && |data.value.messageResponses| > 0 ==> r.retryCount == s.retryCount
    ensures !(data.Some? && |data.value.messageResponses| > 0) ==> r.retryCount == 0 && r.queue == []
    ensures r.sent == s.sent || (|r.sent| == |s.sent| + 1 && r.sent[..|s.sent|] == s.sent)
    ensures r.state == Connected ==> data.Some? && |data.value.messageResponses| > 0
  {
    var after := s.inFlight[k].after;
    var s1 := s.(inFlight := Remove(s.inFlight, k));
    if data.Some? && |data.value.messageResponses| > 0 then
      var m := data.value.messageResponses[0];
      var s2 := if m.status == 200
                then s1.(state := Connected, packetId := data.value.packetId + 1,
                         sessionId := SessionIdOf(m), heartbeat := true)
                else FailAllRequests(s1, MessageResult(m));
      ResumeAfterAuth(s2, after, MessageResult(m))
    else
      ResumeAfterAuth(Disconnect(FailAllRequests(s1, NoResult)), after, NoResult)
  }

  /** `splice(0, 1)` on the queue: the head, if any, leaves it. */
  function DropHead(s: Snapshot): (r: Snapshot)
    ensures s.queue != [] ==> r.queue == s.queue[1..] && r.retired == s.retired + [s.queue[0]]
    ensures s.queue == [] ==> r == s
  {
    if s.queue == [] then s else s.(queue := s.queue[1..], retired := s.retired + [s.queue[0]])
  }

  /** The completion of request call `k` with reply `data`. */
  function RequestReplied(s: Snapshot, k: nat, data: Option<Response>): (r: Snapshot)
    requires k < |s.inFlight| && s.inFlight[k].RequestCall?
    ensures r.history == s.history && |s.retired| <= |r.retired|
    ensures |s.sent| < |r.sent| ==> |r.sent| == |s.sent| + 1 && r.sent[..|s.sent|] == s.sent
    ensures IsSessionExpiry(data, s.retryCount) ==>
              r.retryCount == s.retryCount + 1 && r.queue == s.queue && r.delivered == s.delivered
    ensures !IsSessionExpiry(data, s.retryCount) ==>
              r.retryCount == 0 && |s.delivered| <= |r.delivered| <= |s.delivered| + 1
  {
    var s1 := s.(inFlight := Remove(s.inFlight, k));
    if IsSessionExpiry(data, s.retryCount) then RetryAfterExpiry(s1)
    else Complete(s1, s.inFlight[k].replyTo, ResultFor(data))
  }

  /** The expiry branch: heartbeat stopped, one more retry, packet id and session id reset, and
      a re-authentication started; the queue is left alone. */
  function RetryAfterExpiry(s: Snapshot): (r: Snapshot)
    ensures r.queue == s.queue && r.delivered == s.delivered && r.retryCount == s.retryCount + 1
    ensures r.packetId == 0 && r.sessionId == Null && !r.heartbeat && r.state == Authenticating
    ensures r.sent == s.sent + [AuthPacket(s.config)]
    ensures r.inFlight == s.inFlight + [AuthCall(ResumeAfterReAuth)]
  {
    AuthenticateInternal(s.(heartbeat := false, retryCount := s.retryCount + 1, packetId := 0,
                            sessionId := Null), ResumeAfterReAuth)
  }

  /** The ordinary branch: the callback runs, the head leaves the queue, the retry count is reset
      and the new head, if any, is sent. */
  function Complete(s: Snapshot, replyTo: ReplyTo, o: Outcome): (r: Snapshot)
    ensures r.retryCount == 0 && r.history == s.history
    ensures replyTo.ToCaller? ==>
              && r.queue == (if s.queue == [] then [] else s.queue[1..])
              && r.delivered == s.delivered + (if replyTo.callback.User? then [Delivery(replyTo.callback.id, o)] else [])
    ensures r.queue != [] ==>
              r.sent == s.sent + [Packet(s.packetId, Some(s.sessionId), [r.queue[0].json])]
              && r.inFlight == s.inFlight + [RequestCall(r.queue[0].json, ToCaller(r.queue[0].callback))]
    ensures r.queue == [] ==> r.sent == s.sent && r.inFlight == s.inFlight
  {
    var s2 := Deliver(s, replyTo, o);
    var s3 := DropHead(s2).(retryCount := 0);
    if |s3.queue| > 0 then Send(s3, s3.queue[0].json, ToCaller(s3.queue[0].callback)) else s3
  }

  /** `startHeartbeat`: any running timer is cancelled and one new timer runs. */
  function StartHeartbeat(s: Snapshot): Snapshot
  {
    s.(heartbeat := true)
  }

  /** A tick of the session heartbeat timer: a keepalive sent through the internal `request`,
      bypassing the queue. */
  function HeartbeatTick(s: Snapshot): Snapshot
    requires s.heartbeat
  {
    Send(s, HeartbeatMessage, ToHeartbeat)
  }

  // ---------------------------------------------------------------------------------------
  // Events and runs

  /** Everything that can happen to a context: a call by its owner, a transport reply to call
      `k` of `inFlight`, or a heartbeat timer tick. */
  datatype Event =
    | DoAuthenticate(callback: Callback)
    | DoRequest(json: Message, callback: Callback)
    | DoDisconnect
    | TransportReply(k: nat, data: Option<Response>)
    | HeartbeatTimer

  /** An event can happen: a reply needs a call in flight, a tick a running heartbeat. */
  predicate Enabled(s: Snapshot, e: Event)
  {
    match e
    case TransportReply(k, _) => k < |s.inFlight|
    case HeartbeatTimer => s.heartbeat
    case _ => true
  }

  function Step(s: Snapshot, e: Event): Snapshot
    requires Enabled(s, e)
  {
    match e
    case DoAuthenticate(cb) => Authenticate(s, cb)
    case DoRequest(json, cb) => Request(s, json, cb)
    case DoDisconnect => Disconnect(s)
    case TransportReply(k, data) =>
      if s.inFlight[k].AuthCall? then AuthReplied(s, k, data) else RequestReplied(s, k, data)
    case HeartbeatTimer => HeartbeatTick(s)
  }

  /** An event delivered to a context: one that cannot happen changes nothing. */
  function Apply(s: Snapshot, e: Event): Snapshot
  {
    if Enabled(s, e) then Step(s, e) else s
  }

  /** The state after a sequence of events. */
  function Run(s: Snapshot, events: seq<Event>): Snapshot
    decreases |events|
  {
    if events == [] then s else Run(Apply(s, events[0]), events[1..])
  }

  // ---------------------------------------------------------------------------------------
  // Invariants

  /** What holds of every context, however it is used: the retry bound, the queue only ever
      grows at the tail and shrinks at the head, a heartbeat runs only on a session that is not
      DISCONNECTED, and a DISCONNECTED context has no session id. */
  predicate Valid(s: Snapshot)
  {
    && s.retryCount <= MAX_RETRIES
    && s.history == s.retired + s.queue
    && (s.heartbeat ==> s.state != Disconnected)
    && (s.state == Disconnected ==> s.sessionId == Null)
  }
}
